=== FILE: README.md ===
# ngx-dom-component: input/output metadata, in Dafny

ngx-dom-component mounts an Angular component class into a view container at
run time. It binds the component's declared inputs and outputs, then keeps
it change-detected. This project models the logic that does not depend on
Angular. Each part is a pure function over small immutable values:

- **The metadata registry** (`lib/classes/MetadataEntry.ts`). A class holds
  two sources of input/output tags. One is the reflection table Angular's
  decorators write; the other is the property bag `__prop__metadata__`.
  `SetNgxEntryComponentMetaData` adds tags to the bag without duplicates.
  `GetNgxEntryComponentMetaData` flattens both sources, reflection table
  first.
- **The `NgxEntryComponent` decorator** (`lib/classes/NgxEntryComponent.ts`).
  It checks the `inputs`/`outputs` lists eagerly. It then turns them into
  entries tagged `Input`/`Output` and registers them. If an element is not
  a string, it throws and registers nothing.
- **The wrapper** (`lib/classes/NgxDOMComponent.ts`). This covers option
  normalisation, the constructor's binding loop, the `getChanges` filter,
  `detectChanges` and `insert`'s default index.
- **The older wrapper** (`lib/ngx-dom-component.class.ts`). Its option check
  lets a NaN index through. Its binder handles each
  `property + '-' + decorator` key once. Its `getChanges` does not filter.
  Lemmas set the two versions side by side.

JavaScript values are the datatype `JsValue.Value`. Numbers are integers
plus NaN, and `typeof null` is `"object"`. Thrown exceptions are
`Failure`s of `Result`. Angular's part is modelled only by its inputs and
outputs:

- the view container is an object value, and its methods `createComponent`
  and `insert` are function-valued properties;
- the instance Angular creates is a map of data properties;
- the differ's report is a sequence of change records;
- the calls the wrapper makes into Angular are a list of `HostCall`s;
- subscribing appends a `Subscription`;
- `console.warn` appends a `Warning`.

Modules: `Wrappers`, `JsValue`, `MetadataEntry`, `EntryComponent`,
`Binding` (the per-property bind shared by both wrappers), `Host`
(options, host calls, change records, `detectChanges`, `insert`),
`DomComponent` and `LegacyDomComponent`.

Some behaviours of the source are easy to miss. The model keeps them:

- A non-number `index` is not rejected. Both versions replace it by
  `undefined`. Only the newer one also replaces NaN.
- The change records passed to `ngOnChanges` have `firstChange` set to
  `false`, including on the first pass after construction.
- A `null` view container passes validation because `typeof null` is
  `"object"`. The newer constructor then throws reading `createComponent`,
  before any host call. The older one has already asked for the component
  factory when it throws.
- An array or a plain `{}` also passes as a view container. Both
  constructors then resolve the factory and throw calling the missing
  `createComponent`: a method call evaluates its arguments before checking
  that the callee is a function.
- A `null` inputs or outputs map is not replaced by `{}`. The binder then
  throws on the first entry that reads it.
- A constructor that throws while binding has already mounted the
  component. The assignments and subscriptions made before the throw stay
  on its instance.
- `insert` into a `null` container reassigns the wrapper's container before
  it throws. Every later `insert` that names no container then throws too.

## Model

| member | source | states |
|---|---|---|
| `MetadataEntry.SetNgxEntryComponentMetaData` | lib/classes/MetadataEntry.ts:12-45 | The source's nested loops compute exactly the functional registration of the entries into the bag. The bag is created if absent and the reflection table is untouched. With no entries, the only effect is that the bag exists. |
| `MetadataEntry.AddTagInPlace` | lib/classes/MetadataEntry.ts:22-43 | One iteration: the key search, list creation, the tag search and the conditional push together equal one functional insertion. |
| `MetadataEntry.RegisterTags` | lib/classes/MetadataEntry.ts:19-43 | After registration, a tag is under a property if and only if it was there before or the pair was registered. Existing lists are prefixes of the new ones. |
| `MetadataEntry.RegisterRecords` | lib/classes/MetadataEntry.ts:19-43 | After registration, every given entry's tag is in the list of its property. |
| `MetadataEntry.RegisterWellFormed` | lib/classes/MetadataEntry.ts:31-43 | Registration keeps property keys distinct and never puts two tags with the same name in one list. |
| `MetadataEntry.RegisterPresent` | lib/classes/MetadataEntry.ts:31-43 | Registering entries that are all present already leaves the bag unchanged. |
| `MetadataEntry.RegisterIdempotent` | lib/classes/MetadataEntry.ts:31-43 | Registering the same entries a second time leaves the bag unchanged. |
| `MetadataEntry.RegisterAppendOnly` | lib/classes/MetadataEntry.ts:25-43 | Registration only appends. Keys keep their positions and lists keep their order. A key named by no entry keeps its list. Every new key is a registered property. |
| `MetadataEntry.GetNgxEntryComponentMetaData` | lib/classes/MetadataEntry.ts:47-83 | The number of entries retrieved is the number of tags in both sources. With neither source present, the result is empty. |
| `MetadataEntry.GetReflectAt` | lib/classes/MetadataEntry.ts:50-66 | Item j of key i of the reflection table is retrieved at position Offset(i)+j, before every bag entry, with exactly one leading '@' removed. |
| `MetadataEntry.GetBagAt` | lib/classes/MetadataEntry.ts:68-80 | Item j of key i of the bag is retrieved after all reflection-table entries, in key and list order, with its name copied verbatim. |
| `MetadataEntry.GetAfterSet` | lib/classes/MetadataEntry.ts:47-83 | With no reflection table, retrieval after registration has no repeated pair. Its pairs are the old ones plus the registered ones. From an empty class, they are exactly the distinct registered pairs. |
| `MetadataEntry.GetAfterEmptySet` | lib/classes/MetadataEntry.ts:13-17 | Registering nothing on a class with no metadata and then retrieving yields the empty list. |
| `EntryComponent.NgxEntryComponent` | lib/classes/NgxEntryComponent.ts:14-31 | An absent list defaults to []. A list that is not an array throws the TypeError naming it, inputs checked first. This happens when the decorator is created, before any class is seen. |
| `EntryComponent.BuildEntries` | lib/classes/NgxEntryComponent.ts:37-59 | On success, the entries are every input tagged 'Input' in order, then every output tagged 'Output' in order. Their count is the sum of the two lengths. Otherwise the first non-string element throws a TypeError naming its list and index. |
| `EntryComponent.ElementMessageNamesIndex` | lib/classes/NgxEntryComponent.ts:45 | The message for a non-string element determines the element's index. |
| `EntryComponent.Decorate` | lib/classes/NgxEntryComponent.ts:33-62 | Applying the decorator throws exactly when building the entries throws, and then leaves the class untouched. Otherwise it is registration of the built entries. |
| `EntryComponent.DecorateIdempotent` | lib/classes/NgxEntryComponent.ts:61 | Decorating the same class twice with the same decorator equals decorating it once. |
| `EntryComponent.DecorateRecords` | lib/classes/NgxEntryComponent.ts:33-61 | After a successful decoration, every listed input carries the 'Input' tag and every listed output the 'Output' tag. The reflection table is unchanged. |
| `Binding.BindInput` | lib/classes/NgxDOMComponent.ts:74-80 | A truthy supplied value is assigned to the instance property. Otherwise the instance is unchanged and exactly one warning is added. It throws if and only if the inputs map is null or undefined. |
| `Binding.BindInputFromArray` | lib/classes/NgxDOMComponent.ts:75-76 | An array given as the inputs map (its `typeof` is "object", so it is kept) binds by index: the entry for property "k" assigns element k when it is truthy and warns otherwise. |
| `Binding.BindOutput` | lib/classes/NgxDOMComponent.ts:81-87 | A subscription is added if and only if the callback is a function. Otherwise exactly one warning is added. The instance is never changed. A function callback throws exactly when the instance's property of that name has no `subscribe` method: reading `subscribe` when the property is null or undefined, calling a non-function otherwise. |
| `Host.Collect` | lib/classes/NgxDOMComponent.ts:167-186 | The change map is created exactly when some item's key is kept. Its keys are exactly the kept keys. No change is marked as a first change. |
| `Host.CollectLast` | lib/classes/NgxDOMComponent.ts:179 | The change recorded for a key comes from the last kept item with that key. |
| `Host.DetectChanges` | lib/classes/NgxDOMComponent.ts:188-195 | The differ is consulted only when the instance's ngOnChanges is a function. The hook is called at most once, as the last call, and only with a non-null change map. |
| `Host.Insert` | lib/classes/NgxDOMComponent.ts:136-142 | A number index, NaN included, is used as given. Any other index becomes the length of the container held before the reassignment; reading it from a null container throws and leaves the wrapper unchanged. Otherwise the wrapper holds the given or current container. After the reassignment, inserting throws exactly when that container has no `insert` method: reading `insert` of null, or calling a non-function. |
| `Host.InsertWithoutMethod` | lib/classes/NgxDOMComponent.ts:141-142 | A container that is not null but has no `insert` method, such as `5`, is still taken over before the call throws. |
| `Host.InsertThenInsert` | lib/classes/NgxDOMComponent.ts:136-142 | After a successful insert, an insert naming no container goes into the container of the first one. With no index it goes at that container's length. |
| `Host.InsertIntoNullPoisons` | lib/classes/NgxDOMComponent.ts:141-142 | A failed insert into null leaves the wrapper holding null. Every later insert naming no container throws, and one without an index throws already reading `length`. |
| `Host.InsertUsesPreviousLength` | lib/classes/NgxDOMComponent.ts:137-141 | Inserting into a new container with no index uses the old container's length. |
| `DomComponent.NormalizeNgxDOMComponentOptions` | lib/classes/NgxDOMComponent.ts:21-43 | It fails on a non-object container ("Invalid viewContainerRef"), else on a non-function component ("Invalid component"). Non-object inputs and outputs become {}, and a non-number or NaN index becomes undefined. Valid fields are kept. |
| `DomComponent.NormalizeIdempotent` | lib/classes/NgxDOMComponent.ts:30-42 | Normalised options are a fixed point, so normalising twice equals normalising once. |
| `DomComponent.NormalizeKeepsNullInputs` | lib/classes/NgxDOMComponent.ts:30-32 | A null inputs map survives normalisation because typeof null is "object". |
| `DomComponent.BindMetadata` | lib/classes/NgxDOMComponent.ts:69-89 | The constructor's loop computes the in-order fold of the per-entry bind and stops at the first exception. It also returns the instance it leaves behind either way: all entries bound, or the entries before the throwing one. |
| `DomComponent.BindReachedAt` | lib/classes/NgxDOMComponent.ts:71-89 | When binding throws, it throws at some entry k. The instance left behind is the result of binding the entries before k, and entry k throws the reported exception. |
| `DomComponent.BindReachedAppend` | lib/classes/NgxDOMComponent.ts:71-89 | The loop over `a + b` stops inside `a` when `a` throws. Otherwise it continues through `b` from the state `a` reached. |
| `DomComponent.BindAllAppend` | lib/classes/NgxDOMComponent.ts:71-89 | Binding a + b is binding a, then binding b from the state a left. |
| `DomComponent.BindSkipsUnknown` | lib/classes/NgxDOMComponent.ts:73-88 | An entry named neither 'Input' nor 'Output' is skipped silently. |
| `DomComponent.BindAllEmits` | lib/classes/NgxDOMComponent.ts:71-89 | A completed binding appends one warning per falsy Input and per non-function Output, and one subscription per function Output. Both follow entry order and keep duplicates. |
| `DomComponent.BindAllAssigns` | lib/classes/NgxDOMComponent.ts:74-80 | After a completed binding, a property tagged Input with a truthy value holds that value. Every other property is unchanged. |
| `DomComponent.BindNoDedup` | lib/classes/NgxDOMComponent.ts:71-80 | An input tagged twice and left without a value produces two warnings. |
| `DomComponent.BindAllSucceeds` | lib/classes/NgxDOMComponent.ts:71-89 | Binding completes when both maps are present and every function callback's property has a `subscribe` method. This must also hold of a truthy input of the same name that an `Input` entry would assign. |
| `DomComponent.BindNullInputsThrows` | lib/classes/NgxDOMComponent.ts:71-80 | With a null inputs map, the first Input entry throws instead of warning. Entries before it may be anything but Input. Only an Output entry that threw earlier can pre-empt it. |
| `DomComponent.BindNullInputsReached` | lib/classes/NgxDOMComponent.ts:71-83 | With a null inputs map, when the entries before the first Input entry bind, their assignments, subscriptions and warnings stay in the instance left behind by the throw. |
| `DomComponent.GetChanges` | lib/classes/NgxDOMComponent.ts:167-186 | The result keeps exactly the reported keys tagged 'Input'. It is null if and only if the differ reports nothing or no such key. When not null it is non-empty and holds no first change. |
| `DomComponent.WrapperDetectChanges` | lib/classes/NgxDOMComponent.ts:188-195 | ngOnChanges is called if and only if it is a function and some reported key is tagged Input. It is called at most once, as the last call. |
| `DomComponent.Construct` | lib/classes/NgxDOMComponent.ts:50-59 | Invalid options throw the normalisation error before any host call. A null container throws before any host call. A container without a `createComponent` method throws after the factory resolution, since the argument is evaluated before the call. A construction that returns had a container with that method. |
| `DomComponent.ConstructSequence` | lib/classes/NgxDOMComponent.ts:50-93 | A successful construction first resolves the factory, then creates the component at the normalised index, then creates the differ. It calls ngOnChanges at most once, as the last call. |
| `DomComponent.ConstructBinds` | lib/classes/NgxDOMComponent.ts:53-89 | A successful construction keeps the given container. It binds the class's retrieved metadata onto the instance Angular created. |
| `DomComponent.ConstructKeepsBindings` | lib/classes/NgxDOMComponent.ts:56-89 | Once `createComponent` has run, the component stays mounted. On success it holds the bound instance. When binding throws, it holds the instance as bound by the entries before the throwing one, and that entry throws the reported exception. |
| `LegacyDomComponent.CheckNgxDOMComponentCreateOptions` | lib/ngx-dom-component.class.ts:32-39 | It makes the same two checks in the same order, and defaults inputs/outputs to {}. Only a non-number index becomes undefined; NaN is kept. |
| `LegacyDomComponent.CheckVersusNormalize` | lib/ngx-dom-component.class.ts:37 | The older check equals the newer normalisation on every input except a NaN index. The older keeps it and the newer drops it. |
| `LegacyDomComponent.LegacyReflectAt` | lib/ngx-dom-component.class.ts:74-83 | Reflection-table pairs are visited first, in order, with the decorator name used raw. |
| `LegacyDomComponent.LegacyBagAt` | lib/ngx-dom-component.class.ts:85-94 | Bag pairs are visited after all reflection-table pairs, in order, with '@' prefixed to the tag name. |
| `LegacyDomComponent.HandleAllOnce` | lib/ngx-dom-component.class.ts:48-71 | Handled keys stay distinct. Every visited pair's key is handled and no other key is. Each newly handled key adds at most one warning or subscription. |
| `LegacyDomComponent.InjectPropertyBinds` | lib/ngx-dom-component.class.ts:41-95 | When neither map is supplied, both default to {}. Binding then completes, assigns nothing and subscribes to nothing; it only adds warnings. |
| `LegacyDomComponent.InjectDefaults` | lib/ngx-dom-component.class.ts:44-45 | Omitting the inputs or the outputs map is the same as passing {}. |
| `LegacyDomComponent.HandleAllUnsupplied` | lib/ngx-dom-component.class.ts:54-69 | With both maps empty, every visited pair is skipped or warns. The instance and the subscriptions are unchanged. |
| `LegacyDomComponent.InjectAtMostOnce` | lib/ngx-dom-component.class.ts:41-95 | Across one binding, no key is handled twice, whether or not the maps were supplied. Warnings plus subscriptions never outnumber the distinct keys. |
| `LegacyDomComponent.DoubleTagDifference` | lib/ngx-dom-component.class.ts:48-94 | Take a property tagged Input in both sources with no value. The newer binder warns twice and the older one warns once. |
| `LegacyDomComponent.InjectAsBindAll` | lib/ngx-dom-component.class.ts:41-95 | When no two visited pairs share a key and no reflected decorator is named 'Input' or 'Output' without its '@', the older binder gives the same result as the newer one on the retrieved metadata with the defaulted maps: the same bound instance, subscriptions and warnings, or the same exception. Either way, both leave the same instance behind. |
| `LegacyDomComponent.HandleAllAsBindAll` | lib/ngx-dom-component.class.ts:48-94 | Over pairs with new, distinct keys that bind alike with the newer entries position by position, the older loop yields the newer loop's result, failures included. |
| `LegacyDomComponent.HandleReachedAsBindReached` | lib/ngx-dom-component.class.ts:48-94 | Under the same conditions the older loop stops where the newer one stops, leaving the same instance, subscriptions and warnings. |
| `LegacyDomComponent.HandleReachedAt` | lib/ngx-dom-component.class.ts:48-94 | When the older binding throws, it throws at some pair k. The binder left behind is the result of the pairs before k, and pair k throws the reported exception. |
| `LegacyDomComponent.KeyCollision` | lib/ngx-dom-component.class.ts:50-53 | The pairs ('x', 'y-@Input') and ('x-y', '@Input') share the key 'x-y-@Input', so the second is skipped. |
| `LegacyDomComponent.LegacyGetChanges` | lib/ngx-dom-component.class.ts:161-171 | Every differ item yields a change. The result is null if and only if there are no items. |
| `LegacyDomComponent.FilterVersusUnfiltered` | lib/ngx-dom-component.class.ts:161-171 | The newer getChanges reports a subset of the older one's keys. The two are equal when every reported key is tagged Input. |
| `LegacyDomComponent.InsertAppends` | lib/ngx-dom-component.class.ts:137-142 | With no index (undefined or null) and no new container, the view goes at the current container's length. |
| `LegacyDomComponent.LegacyConstruct` | lib/ngx-dom-component.class.ts:102-108 | Invalid options throw the check's error before any host call. A null container, or one without a `createComponent` method, throws after exactly one host call, the factory resolution. |
| `LegacyDomComponent.LegacyConstructKeepsBindings` | lib/ngx-dom-component.class.ts:108-111 | Once `createComponent` has run, the component stays mounted. It holds all of `injectPropertyBinds`' work on success. When a pair throws, it holds the work of the pairs before that one. |
| `LegacyDomComponent.LegacyConstructSequence` | lib/ngx-dom-component.class.ts:102-114 | A successful older construction resolves the factory, then creates the component, then creates the differ. It binds through `injectPropertyBinds`. It calls ngOnChanges at most once, last, exactly when the hook is a function and the differ reported any item. |
| `LegacyDomComponent.NullContainerCalls` | lib/ngx-dom-component.class.ts:107-108 | With a null container and a valid component, the newer constructor makes no host call. The older one makes one, the factory resolution. Both throw reading `createComponent`. |
| `LegacyDomComponent.MissingCreateComponent` | lib/ngx-dom-component.class.ts:107-108 | A container that passes the `typeof` check but has no `createComponent` method, such as `[]` or `{}`, makes both constructors throw calling it, after exactly one host call, the factory resolution. |
| `LegacyDomComponent.NaNIndexReachesCreate` | lib/ngx-dom-component.class.ts:37 | With a NaN index, the older constructor passes NaN to `createComponent`. The newer one passes undefined. |

## Left out

- View-container forwarding is not modelled: `move`, `detach`, `destroy`, `indexOf`, and the effect of `createComponent`/`insert` on the container. These calls only forward to Angular, so they appear only as recorded `HostCall`s.
- Angular internals are inputs to the model: component factory resolution, the key-value differ's algorithm, RxJS `subscribe`, and `Reflect.getOwnMetadata`. Errors thrown inside them are not modelled.
- The read-only getters (`viewContainerRef`, `componentRef`, `componentType`, `element`, `instance`) are not modelled because they only return fields.
- lib/ngx-dom-component.service.ts, lib/ngx-dom-component.module.ts and lib/classes/NgxDOMComponentContainer.ts are not part of this model. They only supply framework singletons, and `NgxDOMComponentContainer.create` only sets the container before calling the constructor.
- lib/ngx-dom-component.component.ts is not part of this model. It is lifecycle glue. Its constructor builds the container from the view child before Angular resolves it, so the container field is undefined there.
- tools/make.ts, tools/inline-styles.ts and rollup.config.js are build tooling and not part of this model.
- The bag-existence check at lib/classes/MetadataEntry.ts:13 uses `in`, which also sees a bag inherited from a parent class. The model gives each class its own bag.
- The `Obj` properties of `JsValue.Value` flatten own and inherited properties. So `inputs['constructor']` on a plain `{}`, which JavaScript reads as a truthy function, reads as undefined here. Arrays and strings carry only `length` and their elements under canonical decimal indices. Members inherited from `Array.prototype` or `String.prototype` read as undefined. So `outputs['map']` on an array, which JavaScript reads as a function and subscribes, warns here.
- `for...in` lists integer-like keys first in numeric order. The model keeps all keys in insertion order and states ordering within a source and between the two sources.
- `console.warn` output is not modelled. Warnings are returned as a list of `Warning`s without their text.
- Numbers are integers plus NaN. Fractions, infinities and -0 are not modelled.
- The decorator returned by `NgxEntryComponent` is modelled as capturing the option lists when it is created. A later mutation of the options object is not seen.
- Write-back into the caller's `options` object is not modelled. The model returns new values instead. This covers the defaulted lists of `NgxEntryComponent` (lib/classes/NgxEntryComponent.ts:17,25). It also covers the inputs, outputs and index that `normalizeNgxDOMComponentOptions` (lib/classes/NgxDOMComponent.ts:31,35,39) and `checkNgxDOMComponentCreateOptions` (lib/ngx-dom-component.class.ts:35-37) assign into the object they are given.
- `DomComponent.BindAllEmits`: this lemma and `DomComponent.BindAllAssigns` only describe bindings that complete. For a binding that throws, `DomComponent.BindReachedAt` states the instance left behind. Which entry throws is stated only by `DomComponent.BindNullInputsThrows` for a null inputs map and by `DomComponent.BindAllSucceeds` for the absence of a throw.
- Instance properties are data properties only. An `@Input() set x(v)` setter or an accessor-backed output runs component code when the binder assigns `x` (lib/classes/NgxDOMComponent.ts:76, lib/ngx-dom-component.class.ts:57) or reads `subscribe` (line 83, line 64). That code can throw or change other fields, and it is not modelled. So `DomComponent.BindAllAssigns`' "every other property is unchanged" holds only for components without such accessors.
- `detach` and `destroy` are not modelled. After a failed `insert` into null they throw as well: the callee is read before its argument, so they throw reading `detach` (in `destroy`, `remove`) of null.

=== FILE: binding.dfy ===
/** Binding one tagged property of a freshly created component instance,
    shared by both versions of the wrapper (lib/classes/NgxDOMComponent.ts
    and lib/ngx-dom-component.class.ts bind an input and an output the same
    way; they differ in which entries they visit). */
module Binding {
  import opened Wrappers
  import opened JsValue

  /** A callback subscribed to the instance's event stream `property`. */
  datatype Subscription = Subscription(property: string, callback: Value)

  /** The non-fatal `console.warn` for a tagged property left unbound. */
  datatype Warning = MissingInput(property: string) | MissingOutput(property: string)

  /** The component instance's properties, the subscriptions made on it and
      the warnings emitted, in order. */
  datatype Bound = Bound(instance: map<string, Value>, subscriptions: seq<Subscription>, warnings: seq<Warning>)

  /** `inputs[p]`, or `undefined` where `inputs` is null or undefined. */
  function ValueOf(v: Value, p: string): Value {
    match GetProperty(v, p)
    case Success(x) => x
    case Failure(_) => Undefined
  }

  /** An input: a truthy supplied value is assigned to the instance;
      anything else leaves the instance alone and warns once. Reading the
      value from a `null` inputs map throws. */
  function BindInput(st: Bound, inputs: Value, p: string): (r: Result<Bound, Exception>)
    ensures r.Failure? <==> Nullish(inputs)
    ensures r.Success? ==> r.value.subscriptions == st.subscriptions
    ensures r.Success? && Truthy(ValueOf(inputs, p)) ==>
              && r.value.instance == st.instance[p := ValueOf(inputs, p)]
              && r.value.warnings == st.warnings
    ensures r.Success? && !Truthy(ValueOf(inputs, p)) ==>
              && r.value.instance == st.instance
              && r.value.warnings == st.warnings + [MissingInput(p)]
  {
    var v :- GetProperty(inputs, p);
    if Truthy(v) then Success(st.(instance := st.instance[p := v]))
    else Success(st.(warnings := st.warnings + [MissingInput(p)]))
  }

  /** An output: a function callback is subscribed to the instance's event
      stream of the same name; anything else warns once. Reading from a
      `null` outputs map throws, and so does subscribing on a property that
      is missing or has no `subscribe` method. */
  function BindOutput(st: Bound, outputs: Value, p: string): (r: Result<Bound, Exception>)
    ensures Nullish(outputs) ==> r == Failure(NullishRead(p))
    ensures !Nullish(outputs) && ValueOf(outputs, p).Func? ==>
              (r.Failure? <==> !HasMethod(Lookup(st.instance, p), "subscribe"))
    ensures !Nullish(outputs) && ValueOf(outputs, p).Func? && Nullish(Lookup(st.instance, p)) ==>
              r == Failure(NullishRead("subscribe"))
    ensures !Nullish(outputs) && ValueOf(outputs, p).Func? && !Nullish(Lookup(st.instance, p))
            && !HasMethod(Lookup(st.instance, p), "subscribe") ==>
              r == Failure(NotCallable("subscribe"))
    ensures r.Success? ==> r.value.instance == st.instance
    ensures r.Success? && ValueOf(outputs, p).Func? ==>
              && r.value.subscriptions == st.subscriptions + [Subscription(p, ValueOf(outputs, p))]
              && r.value.warnings == st.warnings
    ensures r.Success? && !ValueOf(outputs, p).Func? ==>
              && r.value.subscriptions == st.subscriptions
              && r.value.warnings == st.warnings + [MissingOutput(p)]
  {
    var callback :- GetProperty(outputs, p);
    if TypeOf(callback) == "function" then
      var emitter := Lookup(st.instance, p);
      if Nullish(emitter) then Failure(NullishRead("subscribe"))
      else if !HasMethod(emitter, "subscribe") then Failure(NotCallable("subscribe"))
      else Success(st.(subscriptions := st.subscriptions + [Subscription(p, callback)]))
    else Success(st.(warnings := st.warnings + [MissingOutput(p)]))
  }

  /** An array passed as the inputs map binds by index: the entry for the
      property named "k" reads element `k`. */
  lemma BindInputFromArray(st: Bound, elems: seq<Value>, k: nat)
    requires k < |elems|
    ensures var p := DecimalString(k);
      && (Truthy(elems[k]) ==> BindInput(st, Arr(elems), p) == Success(st.(instance := st.instance[p := elems[k]])))
      && (!Truthy(elems[k]) ==> BindInput(st, Arr(elems), p) == Success(st.(warnings := st.warnings + [MissingInput(p)])))
  {
  }
}

=== FILE: dom_component.dfy ===
/** The wrapper class of lib/classes/NgxDOMComponent.ts: option
    normalisation, the constructor's binding loop over the retrieved
    metadata (no deduplication), change filtering by the `Input` tag, and
    `detectChanges`. */
module DomComponent {
  import opened Wrappers
  import opened JsValue
  import opened MetadataEntry
  import opened Binding
  import opened Host

  // ---------------------------------------------------------------------
  // Options (lines 21-43)
  // ---------------------------------------------------------------------

  /** What normalisation guarantees of the options it returns. */
  predicate Normalized(o: Options) {
    && TypeOf(o.viewContainerRef) == "object"
    && TypeOf(o.componentType) == "function"
    && TypeOf(o.inputs) == "object"
    && TypeOf(o.outputs) == "object"
    && (o.index.Num? || o.index.Undefined?)
  }

  /** `normalizeNgxDOMComponentOptions`: reject a non-object container and a
      non-function component, in that order; replace non-object `inputs`
      and `outputs` by `{}` and a non-number or NaN `index` by `undefined`. */
  function NormalizeNgxDOMComponentOptions(o: Options): (r: Result<Options, Exception>)
    ensures TypeOf(o.viewContainerRef) != "object" ==> r == Failure(Error("Invalid viewContainerRef"))
    ensures TypeOf(o.viewContainerRef) == "object" && !o.componentType.Func? ==>
              r == Failure(Error("Invalid component"))
    ensures r.Success? <==> TypeOf(o.viewContainerRef) == "object" && o.componentType.Func?
    ensures r.Success? ==> Normalized(r.value)
    ensures r.Success? ==>
              && r.value.viewContainerRef == o.viewContainerRef
              && r.value.componentType == o.componentType
              && (TypeOf(o.inputs) == "object" ==> r.value.inputs == o.inputs)
              && (TypeOf(o.inputs) != "object" ==> r.value.inputs == Obj(map[]))
              && (TypeOf(o.outputs) == "object" ==> r.value.outputs == o.outputs)
              && (TypeOf(o.outputs) != "object" ==> r.value.outputs == Obj(map[]))
              && (o.index.Num? ==> r.value.index == o.index)
              && (!o.index.Num? ==> r.value.index == Undefined)
  {
    if TypeOf(o.viewContainerRef) != "object" then Failure(Error("Invalid viewContainerRef"))
    else if TypeOf(o.componentType) != "function" then Failure(Error("Invalid component"))
    else
      var inputs := if TypeOf(o.inputs) != "object" then Obj(map[]) else o.inputs;
      var outputs := if TypeOf(o.outputs) != "object" then Obj(map[]) else o.outputs;
      var index := if TypeOf(o.index) != "number" || o.index.NaN? then Undefined else o.index;
      Success(o.(inputs := inputs, outputs := outputs, index := index))
  }

  /** Valid options are left exactly as they are, so normalising twice is
      normalising once. */
  lemma NormalizeIdempotent(o: Options)
    ensures Normalized(o) ==> NormalizeNgxDOMComponentOptions(o) == Success(o)
    ensures NormalizeNgxDOMComponentOptions(o).Success? ==>
              var n := NormalizeNgxDOMComponentOptions(o).value;
              NormalizeNgxDOMComponentOptions(n) == Success(n)
  {
  }

  /** `typeof null` is "object": a `null` inputs map survives normalisation
      (it is not replaced by `{}`). */
  lemma NormalizeKeepsNullInputs(o: Options)
    requires NormalizeNgxDOMComponentOptions(o).Success? && o.inputs.Null?
    ensures NormalizeNgxDOMComponentOptions(o).value.inputs == Null
  {
  }

  // ---------------------------------------------------------------------
  // Binding loop (lines 69-89)
  // ---------------------------------------------------------------------

  /** One `switch` of the loop: `Input` and `Output` entries are bound,
      any other name is skipped. */
  function BindEntry(st: Bound, e: Entry, inputs: Value, outputs: Value): Result<Bound, Exception> {
    match e.metadataName
    case "Input" => BindInput(st, inputs, e.propertyName)
    case "Output" => BindOutput(st, outputs, e.propertyName)
    case _ => Success(st)
  }

  /** The loop over every metadata entry, in order, stopping at the first
      exception. */
  function BindAll(st: Bound, metadata: seq<Entry>, inputs: Value, outputs: Value): Result<Bound, Exception>
    decreases |metadata|
  {
    if metadata == [] then Success(st)
    else
      var st' :- BindEntry(st, metadata[0], inputs, outputs);
      BindAll(st', metadata[1..], inputs, outputs)
  }

  /** Where the loop leaves the instance: after every entry, or just
      before the entry that throws. The component is already mounted, so
      the assignments and subscriptions made up to there stay made. */
  function BindReached(st: Bound, metadata: seq<Entry>, inputs: Value, outputs: Value): (r: Bound)
    ensures BindAll(st, metadata, inputs, outputs).Success? ==> r == BindAll(st, metadata, inputs, outputs).value
    decreases |metadata|
  {
    if metadata == [] then st
    else
      match BindEntry(st, metadata[0], inputs, outputs)
      case Failure(_) => st
      case Success(s) => BindReached(s, metadata[1..], inputs, outputs)
  }

  /** The constructor's `for` loop: its outcome, and the instance it leaves
      behind whether or not an entry throws. */
  method BindMetadata(st: Bound, metadata: seq<Entry>, inputs: Value, outputs: Value)
    returns (r: Result<Bound, Exception>, reached: Bound)
    ensures r == BindAll(st, metadata, inputs, outputs)
    ensures reached == BindReached(st, metadata, inputs, outputs)
  {
    var cur := st;
    var i := 0;
    while i < |metadata|
      invariant 0 <= i <= |metadata|
      invariant BindAll(cur, metadata[i..], inputs, outputs) == BindAll(st, metadata, inputs, outputs)
      invariant BindReached(cur, metadata[i..], inputs, outputs) == BindReached(st, metadata, inputs, outputs)
    {
      var next := BindEntry(cur, metadata[i], inputs, outputs);
      assert metadata[i..][1..] == metadata[i + 1..];
      if next.Failure? {
        return next, cur;
      }
      cur := next.value;
      i := i + 1;
    }
    assert metadata[i..] == [];
    r, reached := Success(cur), cur;
  }

  /** A binding that throws stops at entry `k`: the instance left behind is
      the result of binding the entries before `k`, and entry `k` throws
      the exception the loop reports. */
  lemma {:induction false} BindReachedAt(st: Bound, metadata: seq<Entry>, inputs: Value, outputs: Value)
    requires BindAll(st, metadata, inputs, outputs).Failure?
    ensures var r := BindReached(st, metadata, inputs, outputs);
      exists k | 0 <= k < |metadata| ::
        && BindAll(st, metadata[..k], inputs, outputs) == Success(r)
        && BindEntry(r, metadata[k], inputs, outputs) == Failure(BindAll(st, metadata, inputs, outputs).error)
    decreases |metadata|
  {
    var r := BindReached(st, metadata, inputs, outputs);
    var e := BindAll(st, metadata, inputs, outputs).error;
    assert metadata != [];
    assert metadata[..0] == [];
    match BindEntry(st, metadata[0], inputs, outputs)
    case Failure(_) =>
      assert BindAll(st, metadata[..0], inputs, outputs) == Success(r);
    case Success(s) =>
      BindReachedAt(s, metadata[1..], inputs, outputs);
      var k :| 0 <= k < |metadata[1..]|
        && BindAll(s, metadata[1..][..k], inputs, outputs) == Success(r)
        && BindEntry(r, metadata[1..][k], inputs, outputs) == Failure(e);
      BindPrefixStep(st, s, metadata, k, inputs, outputs);
      assert metadata[1..][k] == metadata[k + 1];
  }

  lemma BindPrefixStep(st: Bound, s: Bound, metadata: seq<Entry>, k: nat, inputs: Value, outputs: Value)
    requires k < |metadata| && BindEntry(st, metadata[0], inputs, outputs) == Success(s)
    ensures BindAll(st, metadata[..k + 1], inputs, outputs) == BindAll(s, metadata[1..][..k], inputs, outputs)
  {
    assert metadata[..k + 1][1..] == metadata[1..][..k];
    assert metadata[..k + 1][0] == metadata[0];
  }

  /** Binding visits the entries in order: binding `a + b` is binding `a`,
      then `b` from where `a` left off. */
  lemma {:induction false} BindAllAppend(st: Bound, a: seq<Entry>, b: seq<Entry>, inputs: Value, outputs: Value)
    ensures BindAll(st, a + b, inputs, outputs)
            == match BindAll(st, a, inputs, outputs)
               case Success(s) => BindAll(s, b, inputs, outputs)
               case Failure(e) => Failure(e)
    decreases |a|
  {
    if a != [] {
      assert (a + b)[1..] == a[1..] + b;
      match BindEntry(st, a[0], inputs, outputs)
      case Success(s) => BindAllAppend(s, a[1..], b, inputs, outputs);
      case Failure(_) =>
    } else {
      assert a + b == b;
    }
  }

  /** An entry named neither 'Input' nor 'Output' is skipped silently. */
  lemma BindSkipsUnknown(st: Bound, a: seq<Entry>, e: Entry, b: seq<Entry>, inputs: Value, outputs: Value)
    requires e.metadataName != "Input" && e.metadataName != "Output"
    ensures BindAll(st, a + [e] + b, inputs, outputs) == BindAll(st, a + b, inputs, outputs)
  {
    BindAllAppend(st, a, [e] + b, inputs, outputs);
    BindAllAppend(st, a, b, inputs, outputs);
    assert a + [e] + b == a + ([e] + b);
    match BindAll(st, a, inputs, outputs)
    case Success(s) =>
      assert ([e] + b)[1..] == b;
    case Failure(_) =>
  }

  /** The warning one entry causes, if any. */
  function WarningFor(e: Entry, inputs: Value, outputs: Value): seq<Warning> {
    if e.metadataName == "Input" && !Truthy(ValueOf(inputs, e.propertyName)) then [MissingInput(e.propertyName)]
    else if e.metadataName == "Output" && !ValueOf(outputs, e.propertyName).Func? then [MissingOutput(e.propertyName)]
    else []
  }

  /** The subscription one entry causes, if any. */
  function SubscriptionFor(e: Entry, outputs: Value): seq<Subscription> {
    if e.metadataName == "Output" && ValueOf(outputs, e.propertyName).Func?
    then [Subscription(e.propertyName, ValueOf(outputs, e.propertyName))] else []
  }

  /** The warnings binding emits: one per `Input` entry whose value is
      falsy and one per `Output` entry whose callback is not a function, in
      entry order, duplicates included. */
  function ExpectedWarnings(metadata: seq<Entry>, inputs: Value, outputs: Value): seq<Warning>
    decreases |metadata|
  {
    if metadata == [] then []
    else WarningFor(metadata[0], inputs, outputs) + ExpectedWarnings(metadata[1..], inputs, outputs)
  }

  /** The subscriptions binding makes: one per `Output` entry whose callback
      is a function, in entry order, duplicates included. */
  function ExpectedSubscriptions(metadata: seq<Entry>, outputs: Value): seq<Subscription>
    decreases |metadata|
  {
    if metadata == [] then []
    else SubscriptionFor(metadata[0], outputs) + ExpectedSubscriptions(metadata[1..], outputs)
  }

  lemma BindEntryEmits(st: Bound, e: Entry, inputs: Value, outputs: Value)
    requires BindEntry(st, e, inputs, outputs).Success?
    ensures BindEntry(st, e, inputs, outputs).value.warnings == st.warnings + WarningFor(e, inputs, outputs)
    ensures BindEntry(st, e, inputs, outputs).value.subscriptions == st.subscriptions + SubscriptionFor(e, outputs)
  {
  }

  /** The property `p` receives a supplied value: it is tagged `Input` and
      its value is truthy. */
  ghost predicate Assigned(metadata: seq<Entry>, inputs: Value, p: string) {
    && (exists i | 0 <= i < |metadata| :: metadata[i] == Entry(p, "Input"))
    && Truthy(ValueOf(inputs, p))
  }

  /** One step of a completed binding: the first entry bound, and the rest
      were bound from the state it left. */
  lemma BindAllStep(st: Bound, metadata: seq<Entry>, inputs: Value, outputs: Value)
    requires metadata != [] && BindAll(st, metadata, inputs, outputs).Success?
    ensures BindEntry(st, metadata[0], inputs, outputs).Success?
    ensures BindAll(st, metadata, inputs, outputs)
            == BindAll(BindEntry(st, metadata[0], inputs, outputs).value, metadata[1..], inputs, outputs)
  {
  }

  lemma {:induction false} BindAllWarns(st: Bound, metadata: seq<Entry>, inputs: Value, outputs: Value)
    requires BindAll(st, metadata, inputs, outputs).Success?
    ensures BindAll(st, metadata, inputs, outputs).value.warnings
            == st.warnings + ExpectedWarnings(metadata, inputs, outputs)
    decreases |metadata|
  {
    if metadata != [] {
      BindAllStep(st, metadata, inputs, outputs);
      var s := BindEntry(st, metadata[0], inputs, outputs).value;
      BindEntryEmits(st, metadata[0], inputs, outputs);
      BindAllWarns(s, metadata[1..], inputs, outputs);
      var w, ws := WarningFor(metadata[0], inputs, outputs), ExpectedWarnings(metadata[1..], inputs, outputs);
      assert (st.warnings + w) + ws == st.warnings + (w + ws);
    }
  }

  lemma {:induction false} BindAllSubscribes(st: Bound, metadata: seq<Entry>, inputs: Value, outputs: Value)
    requires BindAll(st, metadata, inputs, outputs).Success?
    ensures BindAll(st, metadata, inputs, outputs).value.subscriptions
            == st.subscriptions + ExpectedSubscriptions(metadata, outputs)
    decreases |metadata|
  {
    if metadata != [] {
      BindAllStep(st, metadata, inputs, outputs);
      var s := BindEntry(st, metadata[0], inputs, outputs).value;
      BindEntryEmits(st, metadata[0], inputs, outputs);
      BindAllSubscribes(s, metadata[1..], inputs, outputs);
      var u, us := SubscriptionFor(metadata[0], outputs), ExpectedSubscriptions(metadata[1..], outputs);
      assert (st.subscriptions + u) + us == st.subscriptions + (u + us);
    }
  }

  /** What a completed binding emitted: the listed warnings and
      subscriptions were appended, in entry order. */
  lemma BindAllEmits(st: Bound, metadata: seq<Entry>, inputs: Value, outputs: Value)
    requires BindAll(st, metadata, inputs, outputs).Success?
    ensures BindAll(st, metadata, inputs, outputs).value.warnings
            == st.warnings + ExpectedWarnings(metadata, inputs, outputs)
    ensures BindAll(st, metadata, inputs, outputs).value.subscriptions
            == st.subscriptions + ExpectedSubscriptions(metadata, outputs)
  {
    BindAllWarns(st, metadata, inputs, outputs);
    BindAllSubscribes(st, metadata, inputs, outputs);
  }

  lemma AssignedCons(metadata: seq<Entry>, inputs: Value, p: string)
    requires metadata != []
    ensures Assigned(metadata, inputs, p) <==>
              (metadata[0] == Entry(p, "Input") && Truthy(ValueOf(inputs, p))) || Assigned(metadata[1..], inputs, p)
  {
    if Assigned(metadata, inputs, p) {
      var i :| 0 <= i < |metadata| && metadata[i] == Entry(p, "Input");
      if i > 0 {
        assert metadata[1..][i - 1] == metadata[i];
      }
    }
    if Assigned(metadata[1..], inputs, p) {
      var i :| 0 <= i < |metadata[1..]| && metadata[1..][i] == Entry(p, "Input");
      assert metadata[i + 1] == metadata[1..][i];
    }
  }

  /** The instance after one entry: only an `Input` entry with a truthy
      value writes, and it writes that value. */
  lemma BindEntryAssigns(st: Bound, e: Entry, inputs: Value, outputs: Value, p: string)
    requires BindEntry(st, e, inputs, outputs).Success?
    ensures var r := BindEntry(st, e, inputs, outputs).value;
            var writes := e == Entry(p, "Input") && Truthy(ValueOf(inputs, p));
      && (p in r.instance <==> p in st.instance || writes)
      && (writes ==> r.instance[p] == ValueOf(inputs, p))
      && (!writes && p in st.instance ==> r.instance[p] == st.instance[p])
  {
  }

  /** What a completed binding did to the instance: every `Input` property
      with a truthy value now holds that value, and every other property is
      unchanged. */
  lemma {:induction false} BindAllAssigns(st: Bound, metadata: seq<Entry>, inputs: Value, outputs: Value, p: string)
    requires BindAll(st, metadata, inputs, outputs).Success?
    ensures var r := BindAll(st, metadata, inputs, outputs).value;
      && (p in r.instance <==> p in st.instance || Assigned(metadata, inputs, p))
      && (Assigned(metadata, inputs, p) ==> r.instance[p] == ValueOf(inputs, p))
      && (!Assigned(metadata, inputs, p) && p in st.instance ==> r.instance[p] == st.instance[p])
    decreases |metadata|
  {
    if metadata != [] {
      BindAllStep(st, metadata, inputs, outputs);
      var s := BindEntry(st, metadata[0], inputs, outputs).value;
      BindEntryAssigns(st, metadata[0], inputs, outputs, p);
      BindAllAssigns(s, metadata[1..], inputs, outputs, p);
      AssignedCons(metadata, inputs, p);
    }
  }

  /** Binding has no deduplication: an input tagged twice and left without
      a value is warned about twice. */
  lemma BindNoDedup(st: Bound, p: string, inputs: Value, outputs: Value)
    requires !Nullish(inputs) && !Truthy(ValueOf(inputs, p))
    ensures BindAll(st, [Entry(p, "Input"), Entry(p, "Input")], inputs, outputs)
            == Success(st.(warnings := st.warnings + [MissingInput(p), MissingInput(p)]))
  {
    var e := Entry(p, "Input");
    var once := st.(warnings := st.warnings + [MissingInput(p)]);
    assert BindEntry(st, e, inputs, outputs) == Success(once);
    var twice := st.(warnings := st.warnings + [MissingInput(p), MissingInput(p)]);
    assert once.warnings + [MissingInput(p)] == twice.warnings;
    assert BindEntry(once, e, inputs, outputs) == Success(twice);
    assert [e, e][1..] == [e];
    assert [e][1..] == [];
    assert BindAll(twice, [], inputs, outputs) == Success(twice);
    assert BindAll(once, [e], inputs, outputs) == Success(twice);
  }

  /** Binding succeeds when both maps are present and every function
      callback has an event stream with a `subscribe` method to subscribe
      to, and keeps one when an input of the same name is assigned. */
  lemma {:induction false} BindAllSucceeds(st: Bound, metadata: seq<Entry>, inputs: Value, outputs: Value)
    requires !Nullish(inputs) && !Nullish(outputs)
    requires forall i | 0 <= i < |metadata| && metadata[i].metadataName == "Output"
               && ValueOf(outputs, metadata[i].propertyName).Func? ::
               Subscribable(st, metadata, inputs, metadata[i].propertyName)
    ensures BindAll(st, metadata, inputs, outputs).Success?
    decreases |metadata|
  {
    if metadata != [] {
      var e := metadata[0];
      var s := BindEntry(st, e, inputs, outputs).value;
      forall i | 0 <= i < |metadata[1..]| && metadata[1..][i].metadataName == "Output"
                 && ValueOf(outputs, metadata[1..][i].propertyName).Func?
        ensures Subscribable(s, metadata[1..], inputs, metadata[1..][i].propertyName)
      {
        var p := metadata[1..][i].propertyName;
        assert metadata[1..][i] == metadata[i + 1];
        assert Subscribable(st, metadata, inputs, p);
        if TaggedInput(metadata[1..], p) {
          var j :| 0 <= j < |metadata[1..]| && metadata[1..][j].propertyName == p && metadata[1..][j].metadataName == "Input";
          assert metadata[j + 1] == metadata[1..][j];
        }
        if e.metadataName == "Input" && e.propertyName == p {
          assert TaggedInput(metadata, p);
        }
      }
      BindAllSucceeds(s, metadata[1..], inputs, outputs);
    }
  }

  /** The instance's property `p` has a `subscribe` method, and so does any
      truthy input that an `Input` entry would assign over it. */
  predicate Subscribable(st: Bound, metadata: seq<Entry>, inputs: Value, p: string) {
    && HasMethod(Lookup(st.instance, p), "subscribe")
    && (TaggedInput(metadata, p) && Truthy(ValueOf(inputs, p)) ==> HasMethod(ValueOf(inputs, p), "subscribe"))
  }

  /** With a `null` inputs map, what the entries before the first `Input`
      entry did stays done: the loop stops there with their assignments,
      subscriptions and warnings in place. */
  lemma BindNullInputsReached(st: Bound, a: seq<Entry>, p: string, b: seq<Entry>, outputs: Value)
    requires forall i | 0 <= i < |a| :: a[i].metadataName != "Input"
    requires BindAll(st, a, Null, outputs).Success?
    ensures BindReached(st, a + [Entry(p, "Input")] + b, Null, outputs) == BindAll(st, a, Null, outputs).value
  {
    var c := [Entry(p, "Input")] + b;
    BindReachedAppend(st, a, c, Null, outputs);
    assert a + [Entry(p, "Input")] + b == a + c;
    assert c[0] == Entry(p, "Input");
  }

  /** The loop over `a + b` stops inside `a` if `a` throws, and otherwise
      goes on through `b` from where `a` left off. */
  lemma {:induction false} BindReachedAppend(st: Bound, a: seq<Entry>, b: seq<Entry>, inputs: Value, outputs: Value)
    ensures BindReached(st, a + b, inputs, outputs)
            == match BindAll(st, a, inputs, outputs)
               case Success(s) => BindReached(s, b, inputs, outputs)
               case Failure(_) => BindReached(st, a, inputs, outputs)
    decreases |a|
  {
    if a != [] {
      assert (a + b)[1..] == a[1..] + b;
      assert (a + b)[0] == a[0];
      match BindEntry(st, a[0], inputs, outputs)
      case Success(s) => BindReachedAppend(s, a[1..], b, inputs, outputs);
      case Failure(_) =>
    } else {
      assert a + b == b;
    }
  }

  /** With a `null` inputs map (which normalisation lets through), the first
      `Input` entry throws instead of warning, unless an `Output` entry
      before it has already thrown. */
  lemma BindNullInputsThrows(st: Bound, a: seq<Entry>, p: string, b: seq<Entry>, outputs: Value)
    requires forall i | 0 <= i < |a| :: a[i].metadataName != "Input"
    ensures BindAll(st, a + [Entry(p, "Input")] + b, Null, outputs)
            == match BindAll(st, a, Null, outputs)
               case Success(_) => Failure(NullishRead(p))
               case Failure(e) => Failure(e)
  {
    BindAllAppend(st, a, [Entry(p, "Input")] + b, Null, outputs);
    assert a + [Entry(p, "Input")] + b == a + ([Entry(p, "Input")] + b);
  }

  // ---------------------------------------------------------------------
  // Change filtering (lines 167-195)
  // ---------------------------------------------------------------------

  /** Some metadata entry tags `key` as an `Input`. */
  predicate TaggedInput(metadata: seq<Entry>, key: string) {
    exists i | 0 <= i < |metadata| :: metadata[i].propertyName == key && metadata[i].metadataName == "Input"
  }

  /** `getChanges`: the differ's items whose key is tagged `Input`, as a
      change map; `null` when the differ reports nothing or no such key. */
  function GetChanges(metadata: seq<Entry>, diff: Option<seq<ChangeRecord>>): (r: Option<Changes>)
    ensures r.None? <==> diff.None? || forall i | 0 <= i < |diff.value| :: !TaggedInput(metadata, diff.value[i].key)
    ensures r.Some? ==> forall k :: k in r.value <==>
              TaggedInput(metadata, k) && exists i | 0 <= i < |diff.value| :: diff.value[i].key == k
    ensures r.Some? ==> |r.value| > 0 && NoFirstChange(r.value)
  {
    match diff
    case None => None
    case Some(items) =>
      CollectNonEmpty(items, k => TaggedInput(metadata, k));
      Collect(None, items, k => TaggedInput(metadata, k))
  }

  /** The wrapper after construction: the container it was created in, the
      metadata it read, and the bound instance. */
  datatype Wrapper = Wrapper(container: Value, metadata: seq<Entry>, bound: Bound)

  /** `detectChanges` on a wrapper, given what the differ reports. */
  function WrapperDetectChanges(w: Wrapper, diff: Option<seq<ChangeRecord>>): (calls: seq<HostCall>)
    ensures (exists c :: NgOnChanges(c) in calls) <==>
              && Lookup(w.bound.instance, "ngOnChanges").Func?
              && diff.Some?
              && exists i | 0 <= i < |diff.value| :: TaggedInput(w.metadata, diff.value[i].key)
    ensures forall c :: NgOnChanges(c) in calls ==> calls[|calls| - 1] == NgOnChanges(c) && NoFirstChange(c)
    ensures forall i | 0 <= i < |calls| - 1 :: !calls[i].NgOnChanges?
    ensures |calls| <= 2
  {
    DetectChanges(w.bound.instance, GetChanges(w.metadata, diff))
  }

  // ---------------------------------------------------------------------
  // Construction (lines 50-93)
  // ---------------------------------------------------------------------

  /** The calls the constructor made, the component instance it left in
      the container (`None` when it threw before `createComponent` ran),
      and how it ended. */
  datatype Construction = Construction(calls: seq<HostCall>, mounted: Option<Bound>, outcome: Result<Wrapper, Exception>)

  /** The constructor. `meta` is the component class's metadata, `created`
      the properties of the instance Angular creates, and `diff` what the
      differ reports on the first `detectChanges`. */
  function Construct(options: Options, meta: ClassMeta, created: map<string, Value>, diff: Option<seq<ChangeRecord>>)
    : (r: Construction)
    ensures NormalizeNgxDOMComponentOptions(options).Failure? ==>
              r == Construction([], None, Failure(NormalizeNgxDOMComponentOptions(options).error))
    ensures options.viewContainerRef.Null? ==> r.calls == [] && r.outcome.Failure?
    ensures NormalizeNgxDOMComponentOptions(options).Success? && !Nullish(options.viewContainerRef)
            && !HasMethod(options.viewContainerRef, "createComponent") ==>
              r == Construction([ResolveFactory(options.componentType)], None, Failure(NotCallable("createComponent")))
    ensures r.outcome.Success? ==> HasMethod(options.viewContainerRef, "createComponent")
  {
    match NormalizeNgxDOMComponentOptions(options)
    case Failure(e) => Construction([], None, Failure(e))
    case Success(o) =>
      // `createComponent` is read from the container first, then its
      // argument resolves the factory, and only then is the call made.
      if Nullish(o.viewContainerRef) then Construction([], None, Failure(NullishRead("createComponent")))
      else if !HasMethod(o.viewContainerRef, "createComponent") then
        Construction([ResolveFactory(o.componentType)], None, Failure(NotCallable("createComponent")))
      else Create(o, meta, created, diff)
  }

  /** The constructor from `createComponent` on, with normalised options
      and a container that has a `createComponent` method. */
  function Create(o: Options, meta: ClassMeta, created: map<string, Value>, diff: Option<seq<ChangeRecord>>)
    : (r: Construction)
    ensures |r.calls| >= 3
    ensures r.calls[..3] == [ResolveFactory(o.componentType), CreateComponent(o.viewContainerRef, o.index), CreateDiffer]
  {
    var calls := [ResolveFactory(o.componentType), CreateComponent(o.viewContainerRef, o.index), CreateDiffer];
    var metadata := GetNgxEntryComponentMetaData(meta);
    var start := Bound(created, [], []);
    match BindAll(start, metadata, o.inputs, o.outputs)
    case Failure(e) => Construction(calls, Some(BindReached(start, metadata, o.inputs, o.outputs)), Failure(e))
    case Success(bound) =>
      var w := Wrapper(o.viewContainerRef, metadata, bound);
      Construction(calls + WrapperDetectChanges(w, diff), Some(bound), Success(w))
  }

  /** The shape of a construction that returns: the normalised options and
      the wrapper it built. */
  lemma ConstructShape(options: Options, meta: ClassMeta, created: map<string, Value>, diff: Option<seq<ChangeRecord>>)
    returns (o: Options, w: Wrapper)
    requires Construct(options, meta, created, diff).outcome.Success?
    ensures NormalizeNgxDOMComponentOptions(options) == Success(o)
    ensures Construct(options, meta, created, diff) ==
              Construction([ResolveFactory(o.componentType), CreateComponent(o.viewContainerRef, o.index), CreateDiffer]
                           + WrapperDetectChanges(w, diff), Some(w.bound), Success(w))
    ensures w.container == o.viewContainerRef && w.metadata == GetNgxEntryComponentMetaData(meta)
    ensures BindAll(Bound(created, [], []), w.metadata, o.inputs, o.outputs) == Success(w.bound)
  {
    o := NormalizeNgxDOMComponentOptions(options).value;
    assert Construct(options, meta, created, diff) == Create(o, meta, created, diff);
    var metadata := GetNgxEntryComponentMetaData(meta);
    var bound := BindAll(Bound(created, [], []), metadata, o.inputs, o.outputs);
    assert HasMethod(o.viewContainerRef, "createComponent") && bound.Success?;
    w := Wrapper(o.viewContainerRef, metadata, bound.value);
  }

  /** A constructor that returns created the component, then the differ,
      and called `ngOnChanges` at most once, as its last call. */
  lemma ConstructSequence(options: Options, meta: ClassMeta, created: map<string, Value>, diff: Option<seq<ChangeRecord>>)
    requires Construct(options, meta, created, diff).outcome.Success?
    ensures NormalizeNgxDOMComponentOptions(options).Success?
    ensures var o := NormalizeNgxDOMComponentOptions(options).value;
            var r := Construct(options, meta, created, diff);
      && |r.calls| >= 3
      && r.calls[..3] == [ResolveFactory(o.componentType), CreateComponent(o.viewContainerRef, o.index), CreateDiffer]
      && (forall i | 0 <= i < |r.calls| - 1 :: !r.calls[i].NgOnChanges?)
  {
    var o, w := ConstructShape(options, meta, created, diff);
    var calls: seq<HostCall> := [ResolveFactory(o.componentType), CreateComponent(o.viewContainerRef, o.index), CreateDiffer];
    var tail := WrapperDetectChanges(w, diff);
    forall i | 0 <= i < |calls + tail| - 1
      ensures !(calls + tail)[i].NgOnChanges?
    {
      if i >= 3 {
        assert (calls + tail)[i] == tail[i - 3];
      }
    }
    assert (calls + tail)[..3] == calls;
  }

  /** A constructor that returns keeps the given container and binds the
      class's retrieved metadata onto the instance Angular created. */
  lemma ConstructBinds(options: Options, meta: ClassMeta, created: map<string, Value>, diff: Option<seq<ChangeRecord>>)
    requires Construct(options, meta, created, diff).outcome.Success?
    ensures NormalizeNgxDOMComponentOptions(options).Success?
    ensures var o := NormalizeNgxDOMComponentOptions(options).value;
            var w := Construct(options, meta, created, diff).outcome.value;
      && w.container == options.viewContainerRef
      && w.metadata == GetNgxEntryComponentMetaData(meta)
      && BindAll(Bound(created, [], []), w.metadata, o.inputs, o.outputs) == Success(w.bound)
  {
    var o, w := ConstructShape(options, meta, created, diff);
  }

  /** A constructor that gets as far as `createComponent` leaves the
      component mounted. When binding then throws, the instance keeps the
      assignments and subscriptions of the entries before the one that
      threw, and that entry throws the reported exception. */
  lemma ConstructKeepsBindings(options: Options, meta: ClassMeta, created: map<string, Value>, diff: Option<seq<ChangeRecord>>)
    requires NormalizeNgxDOMComponentOptions(options).Success?
    requires HasMethod(options.viewContainerRef, "createComponent")
    ensures var o := NormalizeNgxDOMComponentOptions(options).value;
            var metadata := GetNgxEntryComponentMetaData(meta);
            var r := Construct(options, meta, created, diff);
      && r.mounted.Some?
      && (r.outcome.Success? ==> r.mounted == Some(r.outcome.value.bound))
      && (r.outcome.Failure? ==>
            exists k | 0 <= k < |metadata| ::
              && BindAll(Bound(created, [], []), metadata[..k], o.inputs, o.outputs) == Success(r.mounted.value)
              && BindEntry(r.mounted.value, metadata[k], o.inputs, o.outputs) == Failure(r.outcome.error))
  {
    var o := NormalizeNgxDOMComponentOptions(options).value;
    var metadata := GetNgxEntryComponentMetaData(meta);
    var start := Bound(created, [], []);
    assert Construct(options, meta, created, diff) == Create(o, meta, created, diff);
    if BindAll(start, metadata, o.inputs, o.outputs).Failure? {
      BindReachedAt(start, metadata, o.inputs, o.outputs);
    }
  }
}

=== FILE: entry_component.dfy ===
/** The class decorator of lib/classes/NgxEntryComponent.ts: it validates
    the `inputs`/`outputs` option lists eagerly, and the decorator function
    it returns tags every listed name and registers the tags on the class. */
module EntryComponent {
  import opened Wrappers
  import opened JsValue
  import opened MetadataEntry

  /** `{ inputs?, outputs? }`; an omitted field is `Undefined`. */
  datatype EntryOptions = EntryOptions(inputs: Value, outputs: Value)

  /** The decorator function `(target) => void`, with the lists it closes over. */
  datatype Decorator = Decorator(inputs: seq<Value>, outputs: seq<Value>)

  /** The outcome of applying the decorator to a class: the class's
      metadata afterwards and the exception thrown, if any. */
  datatype Applied = Applied(target: ClassMeta, thrown: Option<Exception>)

  /** An option list the decorator accepts: an array, or absent. */
  predicate ListOption(v: Value) {
    v.Undefined? || v.Arr?
  }

  /** `NgxEntryComponent(options)`: default an absent list to `[]`, then
      throw on a list that is not an array, inputs first. */
  function NgxEntryComponent(options: EntryOptions): (r: Result<Decorator, Exception>)
    ensures r.Success? <==> ListOption(options.inputs) && ListOption(options.outputs)
    ensures !ListOption(options.inputs) ==> r == Failure(TypeError("Expected string[] as options.inputs"))
    ensures ListOption(options.inputs) && !ListOption(options.outputs) ==>
              r == Failure(TypeError("Expected string[] as options.outputs"))
    ensures r.Success? && options.inputs.Undefined? ==> r.value.inputs == []
    ensures r.Success? && options.inputs.Arr? ==> r.value.inputs == options.inputs.elems
    ensures r.Success? && options.outputs.Undefined? ==> r.value.outputs == []
    ensures r.Success? && options.outputs.Arr? ==> r.value.outputs == options.outputs.elems
  {
    var inputs := if options.inputs.Undefined? then Arr([]) else options.inputs;
    if !inputs.Arr? then Failure(TypeError("Expected string[] as options.inputs"))
    else
      var outputs := if options.outputs.Undefined? then Arr([]) else options.outputs;
      if !outputs.Arr? then Failure(TypeError("Expected string[] as options.outputs"))
      else Success(Decorator(inputs.elems, outputs.elems))
  }

  /** The index of the first element that is not a string, if any. */
  function FirstNonString(xs: seq<Value>): (r: Option<nat>)
    ensures r.Some? ==> r.value < |xs| && !xs[r.value].Str?
    ensures r.Some? ==> forall k | 0 <= k < r.value :: xs[k].Str?
    ensures r.None? <==> forall k | 0 <= k < |xs| :: xs[k].Str?
    decreases |xs|
  {
    if xs == [] then None
    else if !xs[0].Str? then Some(0)
    else match FirstNonString(xs[1..])
      case None => None
      case Some(i) => Some(i + 1)
  }

  /** Every element of `names` (all strings), tagged `tag`, in order. */
  function Tagged(names: seq<Value>, tag: string): (r: seq<Entry>)
    requires forall k | 0 <= k < |names| :: names[k].Str?
  {
    seq(|names|, k requires 0 <= k < |names| && names[k].Str? => Entry(names[k].s, tag))
  }

  /** The message naming the offending element, as in
      `Expected string[] as options.inputs[3]`. */
  function ElementMessage(option: string, index: nat): string {
    "Expected string[] as options." + option + "[" + DecimalString(index) + "]"
  }

  /** Different indices give different messages, so the message names
      exactly one element. */
  lemma ElementMessageNamesIndex(option: string, i: nat, j: nat)
    requires ElementMessage(option, i) == ElementMessage(option, j)
    ensures i == j
  {
    var prefix := "Expected string[] as options." + option + "[";
    var di, dj := DecimalString(i), DecimalString(j);
    assert ElementMessage(option, i) == prefix + di + "]";
    assert ElementMessage(option, j) == prefix + dj + "]";
    assert |di| == |dj|;
    assert di == ElementMessage(option, i)[|prefix|..|prefix| + |di|];
    assert dj == ElementMessage(option, j)[|prefix|..|prefix| + |dj|];
    DecimalStringInjective(i, j);
  }

  /** The loops of the decorator function: every input tagged 'Input', in
      order, then every output tagged 'Output', in order; the first element
      that is not a string throws a TypeError naming its list and index. */
  function BuildEntries(d: Decorator): (r: Result<seq<Entry>, Exception>)
    ensures r.Success? <==> ((forall k | 0 <= k < |d.inputs| :: d.inputs[k].Str?)
                          && (forall k | 0 <= k < |d.outputs| :: d.outputs[k].Str?))
    ensures r.Success? ==>
              && |r.value| == |d.inputs| + |d.outputs|
              && (forall k | 0 <= k < |d.inputs| :: d.inputs[k].Str? && r.value[k] == Entry(d.inputs[k].s, "Input"))
              && (forall k | 0 <= k < |d.outputs| ::
                    d.outputs[k].Str? && r.value[|d.inputs| + k] == Entry(d.outputs[k].s, "Output"))
    ensures forall i | 0 <= i < |d.inputs| && !d.inputs[i].Str? && (forall k | 0 <= k < i :: d.inputs[k].Str?) ::
              r == Failure(TypeError(ElementMessage("inputs", i)))
    ensures (forall k | 0 <= k < |d.inputs| :: d.inputs[k].Str?) ==>
              forall i | 0 <= i < |d.outputs| && !d.outputs[i].Str? && (forall k | 0 <= k < i :: d.outputs[k].Str?) ::
                r == Failure(TypeError(ElementMessage("outputs", i)))
  {
    match FirstNonString(d.inputs)
    case Some(i) => Failure(TypeError(ElementMessage("inputs", i)))
    case None =>
      match FirstNonString(d.outputs)
      case Some(i) => Failure(TypeError(ElementMessage("outputs", i)))
      case None => Success(Tagged(d.inputs, "Input") + Tagged(d.outputs, "Output"))
  }

  /** Applying the decorator to a class: build the entries, then register
      them; a throw while building leaves the class untouched (not even the
      bag is created). */
  function Decorate(d: Decorator, target: ClassMeta): (r: Applied)
    ensures r.thrown.Some? <==> BuildEntries(d).Failure?
    ensures r.thrown.Some? ==> r.target == target && r.thrown.value == BuildEntries(d).error
    ensures r.thrown.None? ==> r.target == SetMeta(target, BuildEntries(d).value)
  {
    match BuildEntries(d)
    case Failure(e) => Applied(target, Some(e))
    case Success(es) => Applied(SetMeta(target, es), None)
  }

  /** Decorating a class twice with the same decorator is decorating it once. */
  lemma DecorateIdempotent(d: Decorator, target: ClassMeta)
    ensures Decorate(d, Decorate(d, target).target) == Decorate(d, target)
  {
    if BuildEntries(d).Success? {
      var es := BuildEntries(d).value;
      RegisterIdempotent(target.bag.GetOr([]), es);
    }
  }

  /** After a successful decoration every listed input carries the 'Input'
      tag and every listed output the 'Output' tag, and the class's
      reflection table is untouched. */
  lemma DecorateRecords(d: Decorator, target: ClassMeta)
    requires Decorate(d, target).thrown.None?
    ensures var m := Decorate(d, target).target;
      && m.reflect == target.reflect
      && m.bag.Some?
      && (forall k | 0 <= k < |d.inputs| :: d.inputs[k].Str? && Tag("Input") in TagsOf(m.bag.value, d.inputs[k].s))
      && (forall k | 0 <= k < |d.outputs| :: d.outputs[k].Str? && Tag("Output") in TagsOf(m.bag.value, d.outputs[k].s))
  {
    var es := BuildEntries(d).value;
    RegisterRecords(target.bag.GetOr([]), es);
    forall k | 0 <= k < |d.inputs|
      ensures Entry(d.inputs[k].s, "Input") in es
    {
      assert es[k] == Entry(d.inputs[k].s, "Input");
    }
    forall k | 0 <= k < |d.outputs|
      ensures Entry(d.outputs[k].s, "Output") in es
    {
      assert es[|d.inputs| + k] == Entry(d.outputs[k].s, "Output");
    }
  }
}

=== FILE: host.dfy ===
/** The host framework as the wrappers see it: the options record they are
    built from, the calls they make into Angular, the records Angular's
    key-value differ reports, and the change map handed to `ngOnChanges`.
    Angular's own algorithms are not modelled; their results are inputs. */
module Host {
  import opened Wrappers
  import opened JsValue

  /** `{ viewContainerRef, componentType, inputs, outputs, index }`; an
      omitted field is `Undefined`. */
  datatype Options = Options(
    viewContainerRef: Value,
    componentType: Value,
    inputs: Value,
    outputs: Value,
    index: Value)

  /** A call into Angular, in the order the wrapper makes them. */
  datatype HostCall =
    | ResolveFactory(componentType: Value)
    | CreateComponent(container: Value, index: Value)
    | CreateDiffer
    | Diff
    | NgOnChanges(changes: Changes)
    | InsertView(container: Value, index: Value)

  /** One item the differ reports for the instance. */
  datatype ChangeRecord = ChangeRecord(key: string, previousValue: Value, currentValue: Value)

  /** `new SimpleChange(previousValue, currentValue, firstChange)`. */
  datatype SimpleChange = SimpleChange(previousValue: Value, currentValue: Value, firstChange: bool)

  type Changes = map<string, SimpleChange>

  predicate NoFirstChange(c: Changes) {
    forall k | k in c :: !c[k].firstChange
  }

  /** The `forEachItem` callback over the diff: every item whose key `keep`
      accepts is written as `changes[key] = new SimpleChange(prev, cur,
      false)`, creating the change map on the first such item. */
  function Collect(acc: Option<Changes>, items: seq<ChangeRecord>, keep: string -> bool): (r: Option<Changes>)
    requires acc.Some? ==> NoFirstChange(acc.value)
    ensures r.None? <==> acc.None? && forall i | 0 <= i < |items| :: !keep(items[i].key)
    ensures r.Some? ==> forall k :: k in r.value <==>
              (acc.Some? && k in acc.value) || exists i | 0 <= i < |items| :: items[i].key == k && keep(k)
    ensures r.Some? ==> NoFirstChange(r.value)
    decreases |items|
  {
    if items == [] then acc
    else
      var item := items[0];
      var acc' :=
        if keep(item.key)
        then Some(acc.GetOr(map[])[item.key := SimpleChange(item.previousValue, item.currentValue, false)])
        else acc;
      var r := Collect(acc', items[1..], keep);
      assert forall i | 1 <= i < |items| :: items[i] == items[1..][i - 1];
      r
  }

  /** The change recorded for a key is the one of the key's last kept item. */
  lemma {:induction false} CollectLast(acc: Option<Changes>, items: seq<ChangeRecord>, keep: string -> bool, i: nat)
    requires acc.Some? ==> NoFirstChange(acc.value)
    requires i < |items| && keep(items[i].key)
    requires forall j | i < j < |items| :: items[j].key != items[i].key
    ensures Collect(acc, items, keep).Some?
    ensures var r := Collect(acc, items, keep).value;
            items[i].key in r
            && r[items[i].key] == SimpleChange(items[i].previousValue, items[i].currentValue, false)
    decreases |items|
  {
    var item := items[0];
    var acc' :=
      if keep(item.key)
      then Some(acc.GetOr(map[])[item.key := SimpleChange(item.previousValue, item.currentValue, false)])
      else acc;
    if i == 0 {
      CollectUntouched(acc', items[1..], keep, item.key);
    } else {
      CollectLast(acc', items[1..], keep, i - 1);
    }
  }

  /** A change map created from nothing holds at least one change. */
  lemma CollectNonEmpty(items: seq<ChangeRecord>, keep: string -> bool)
    ensures Collect(None, items, keep).Some? ==> |Collect(None, items, keep).value| > 0
  {
    var r := Collect(None, items, keep);
    if r.Some? {
      var i :| 0 <= i < |items| && keep(items[i].key);
      assert items[i].key in r.value;
    }
  }

  /** A key no remaining item mentions keeps its accumulated change. */
  lemma {:induction false} CollectUntouched(acc: Option<Changes>, items: seq<ChangeRecord>, keep: string -> bool, k: string)
    requires acc.Some? ==> NoFirstChange(acc.value)
    requires acc.Some? && k in acc.value
    requires forall j | 0 <= j < |items| :: items[j].key != k
    ensures Collect(acc, items, keep).Some?
    ensures k in Collect(acc, items, keep).value
    ensures Collect(acc, items, keep).value[k] == acc.value[k]
    decreases |items|
  {
    if items != [] {
      var item := items[0];
      var acc' :=
        if keep(item.key)
        then Some(acc.GetOr(map[])[item.key := SimpleChange(item.previousValue, item.currentValue, false)])
        else acc;
      CollectUntouched(acc', items[1..], keep, k);
    }
  }

  /** `detectChanges`: when the instance has an `ngOnChanges` function, the
      differ is consulted and, if it yields a change map, the hook is
      called once with it; otherwise nothing happens. `changes` is what
      `getChanges` would return. */
  function DetectChanges(instance: map<string, Value>, changes: Option<Changes>): (calls: seq<HostCall>)
    ensures |calls| <= 2
    ensures Diff in calls <==> Lookup(instance, "ngOnChanges").Func?
    ensures (exists c :: NgOnChanges(c) in calls) <==> Lookup(instance, "ngOnChanges").Func? && changes.Some?
    ensures forall c :: NgOnChanges(c) in calls ==> changes == Some(c) && calls[|calls| - 1] == NgOnChanges(c)
    ensures forall i | 0 <= i < |calls| - 1 :: !calls[i].NgOnChanges?
  {
    if TypeOf(Lookup(instance, "ngOnChanges")) == "function" then
      [Diff] + (if changes.Some? then [NgOnChanges(changes.value)] else [])
    else []
  }

  /** What `insert` leaves behind: the container the wrapper holds
      afterwards, and the view insertion it asked Angular for or the
      exception it threw. */
  datatype Inserted = Inserted(held: Value, outcome: Result<HostCall, Exception>)

  /** `insert(index = null, viewContainerRef = this._viewContainerRef)`:
      a non-number index is replaced by the `length` of the container held
      BEFORE the reassignment (which throws, leaving the wrapper as it was,
      when that container is null); the wrapper then holds the given
      container, and the view is inserted into it. That last call throws,
      with the reassignment already made, when the container is null or
      has no `insert` method. `Undefined` arguments take the defaults. NaN
      is a number and passes through. */
  function Insert(current: Value, index: Value, target: Value): (r: Inserted)
    ensures var container := if target.Undefined? then current else target;
            var lengthThrows := TypeOf(index) != "number" && Nullish(current);
      && (lengthThrows ==> r == Inserted(current, Failure(NullishRead("length"))))
      && (!lengthThrows ==> r.held == container)
      && (!lengthThrows && Nullish(container) ==> r.outcome == Failure(NullishRead("insert")))
      && (!lengthThrows && !Nullish(container) && !HasMethod(container, "insert") ==>
            r.outcome == Failure(NotCallable("insert")))
      && (r.outcome.Success? <==> !lengthThrows && HasMethod(container, "insert"))
      && (r.outcome.Success? && TypeOf(index) == "number" ==> r.outcome.value == InsertView(container, index))
      && (r.outcome.Success? && TypeOf(index) != "number" ==>
            r.outcome.value == InsertView(container, GetProperty(current, "length").value))
  {
    match (if TypeOf(index) == "number" then Success(index) else GetProperty(current, "length"))
    case Failure(e) => Inserted(current, Failure(e))
    case Success(idx) =>
      var container := if target.Undefined? then current else target;
      Inserted(container,
        if Nullish(container) then Failure(NullishRead("insert"))
        else if !HasMethod(container, "insert") then Failure(NotCallable("insert"))
        else Success(InsertView(container, idx)))
  }

  /** Moving to another container with no index uses the old container's
      length, not the new one's. */
  lemma InsertUsesPreviousLength(oldProps: map<string, Value>, newProps: map<string, Value>, n: int)
    requires "length" in oldProps && oldProps["length"] == Num(n)
    requires HasMethod(Obj(newProps), "insert")
    ensures Insert(Obj(oldProps), Undefined, Obj(newProps))
            == Inserted(Obj(newProps), Success(InsertView(Obj(newProps), Num(n))))
  {
  }

  /** The container a successful `insert` leaves behind is the default of
      the next one: inserting again with no container goes where the
      first insertion went, or to the new one's length with no index. */
  lemma InsertThenInsert(current: Value, i: Value, target: Value, j: Value)
    requires Insert(current, i, target).outcome.Success?
    ensures var first := Insert(current, i, target);
            var container := first.outcome.value.container;
            var second := Insert(first.held, j, Undefined);
      && second.held == container
      && second.outcome.Success?
      && (TypeOf(j) == "number" ==> second.outcome.value == InsertView(container, j))
      && (TypeOf(j) != "number" ==>
            second.outcome.value == InsertView(container, GetProperty(container, "length").value))
  {
  }

  /** A failed `insert` into a null container still reassigns: the
      wrapper holds null afterwards, so every later `insert` that names no
      new container throws, one without an index already at reading the
      old container's `length`. */
  lemma InsertIntoNullPoisons(current: Value, i: Value, j: Value)
    requires !Nullish(current) && TypeOf(i) == "number"
    ensures var first := Insert(current, i, Null);
      && first == Inserted(Null, Failure(NullishRead("insert")))
      && Insert(first.held, j, Undefined).held == Null
      && Insert(first.held, j, Undefined).outcome.Failure?
      && (TypeOf(j) != "number" ==> Insert(first.held, j, Undefined) == Inserted(Null, Failure(NullishRead("length"))))
  {
  }

  /** A container that is not null but has no `insert` method (a number,
      a plain `{}`) is still taken over before the call throws, so the
      wrapper is left holding it. */
  lemma InsertWithoutMethod(current: Value, i: Value, target: Value)
    requires TypeOf(i) == "number" && !Nullish(target) && !HasMethod(target, "insert")
    ensures Insert(current, i, target) == Inserted(target, Failure(NotCallable("insert")))
  {
  }
}

=== FILE: js_value.dfy ===
/** The slice of JavaScript's value model that the adapter's checks observe:
    `typeof`, truthiness, `Array.isArray`, property reads that throw on
    `null`/`undefined`, and the exceptions the adapter raises. */
module JsValue {
  import opened Wrappers

  /** A JavaScript value. Numbers are integers plus NaN; objects carry their
      readable properties (own and inherited, flattened); functions carry only
      an identity. */
  datatype Value =
    | Undefined
    | Null
    | Bool(b: bool)
    | Num(n: int)
    | NaN
    | Str(s: string)
    | Obj(props: map<string, Value>)
    | Arr(elems: seq<Value>)
    | Func(id: nat)

  /** The result of the `typeof` operator. Note that `typeof null` is "object". */
  function TypeOf(v: Value): (r: string)
    ensures r in {"undefined", "object", "boolean", "number", "string", "function"}
    ensures r == "object" <==> v.Null? || v.Obj? || v.Arr?
    ensures r == "number" <==> v.Num? || v.NaN?
    ensures r == "function" <==> v.Func?
  {
    match v
    case Undefined => "undefined"
    case Null => "object"
    case Bool(_) => "boolean"
    case Num(_) => "number"
    case NaN => "number"
    case Str(_) => "string"
    case Obj(_) => "object"
    case Arr(_) => "object"
    case Func(_) => "function"
  }

  /** JavaScript truthiness: `undefined`, `null`, `false`, `0`, NaN and the
      empty string are falsy, everything else is truthy. */
  predicate Truthy(v: Value) {
    match v
    case Undefined => false
    case Null => false
    case Bool(b) => b
    case Num(n) => n != 0
    case NaN => false
    case Str(s) => s != ""
    case _ => true
  }

  predicate Nullish(v: Value) {
    v.Undefined? || v.Null?
  }

  /** What an operation of the adapter can throw. `Error` and `TypeError` are
      the adapter's own `throw new ...(message)`; `NullishRead` is the
      TypeError the engine raises when a property `key` is read from `null`
      or `undefined`; `NotCallable` is the TypeError it raises when
      `v[key](...)` is called and `v[key]` is not a function (the message
      texts differ between engines). */
  datatype Exception =
    | Error(message: string)
    | TypeError(message: string)
    | NullishRead(key: string)
    | NotCallable(key: string)

  /** The property read `v[key]`. Reading from `null` or `undefined` throws;
      a missing property of an object reads as `undefined`. Arrays and
      strings have their `length` and their elements under the canonical
      decimal index; no other built-in property is modelled. */
  function GetProperty(v: Value, key: string): (r: Result<Value, Exception>)
    ensures r.Failure? <==> Nullish(v)
    ensures r.Failure? ==> r.error == NullishRead(key)
    ensures v.Obj? && key in v.props ==> r == Success(v.props[key])
    ensures v.Obj? && key !in v.props ==> r == Success(Undefined)
    ensures v.Arr? && key == "length" ==> r == Success(Num(|v.elems|))
    ensures v.Arr? ==> forall k: nat | k < |v.elems| && key == DecimalString(k) :: r == Success(v.elems[k])
    ensures v.Arr? && key != "length" && IndexIn(key, |v.elems|).None? ==> r == Success(Undefined)
    ensures v.Str? ==> forall k: nat | k < |v.s| && key == DecimalString(k) :: r == Success(Str([v.s[k]]))
  {
    match v
    case Undefined => Failure(NullishRead(key))
    case Null => Failure(NullishRead(key))
    case Obj(props) => Success(if key in props then props[key] else Undefined)
    case Arr(elems) =>
      LengthIsNoIndex(key);
      Success(if key == "length" then Num(|elems|)
              else match IndexIn(key, |elems|)
                   case Some(k) => elems[k]
                   case None => Undefined)
    case Str(s) =>
      LengthIsNoIndex(key);
      Success(if key == "length" then Num(|s|)
              else match IndexIn(key, |s|)
                   case Some(k) => Str([s[k]])
                   case None => Undefined)
    case _ => Success(Undefined)
  }

  /** The index below `n` that `key` names, if any: `key` must be the
      canonical decimal string of the index ("1", not "01" or "1.0"). */
  function IndexIn(key: string, n: nat): (r: Option<nat>)
    ensures r.Some? ==> r.value < n
    ensures forall k: nat | k < n :: key == DecimalString(k) <==> r == Some(k)
  {
    IndexFrom(key, 0, n)
  }

  function IndexFrom(key: string, k: nat, n: nat): (r: Option<nat>)
    requires k <= n
    ensures r.Some? ==> k <= r.value < n
    ensures forall j: nat | k <= j < n :: key == DecimalString(j) <==> r == Some(j)
    decreases n - k
  {
    if k == n then None
    else if DecimalString(k) == key then
      DecimalStringUnique(k);
      Some(k)
    else IndexFrom(key, k + 1, n)
  }

  /** `v[key]` reads a function, so the method call `v[key](...)` does not
      throw. */
  predicate HasMethod(v: Value, key: string) {
    GetProperty(v, key).Success? && GetProperty(v, key).value.Func?
  }

  /** A property read from a map of properties that is known to be an
      object, such as a component instance. */
  function Lookup(props: map<string, Value>, key: string): (r: Value)
    ensures key !in props ==> r.Undefined?
    ensures GetProperty(Obj(props), key) == Success(r)
  {
    if key in props then props[key] else Undefined
  }

  /** The decimal digits of `n`, as a template literal `${n}` prints it. */
  function DecimalString(n: nat): (r: string)
    ensures |r| >= 1
    ensures forall i | 0 <= i < |r| :: '0' <= r[i] <= '9'
    ensures n < 10 <==> |r| == 1
  {
    if n < 10 then [Digit(n)] else DecimalString(n / 10) + [Digit(n % 10)]
  }

  function Digit(d: nat): (c: char)
    requires d < 10
    ensures '0' <= c <= '9'
  {
    ['0', '1', '2', '3', '4', '5', '6', '7', '8', '9'][d]
  }

  /** Decimal printing is injective, so a message naming an index names
      exactly one index. */
  lemma {:induction false} DecimalStringInjective(a: nat, b: nat)
    requires DecimalString(a) == DecimalString(b)
    ensures a == b
  {
    if a < 10 || b < 10 {
      if a >= 10 || b >= 10 {
        assert false;
      }
      assert DecimalString(a)[0] == DecimalString(b)[0];
      DigitInjective(a, b);
    } else {
      var da, db := DecimalString(a), DecimalString(b);
      assert da[..|da| - 1] == DecimalString(a / 10);
      assert db[..|db| - 1] == DecimalString(b / 10);
      DecimalStringInjective(a / 10, b / 10);
      assert da[|da| - 1] == Digit(a % 10);
      assert db[|db| - 1] == Digit(b % 10);
      DigitInjective(a % 10, b % 10);
    }
  }

  /** "length" is not an index name: index names are all digits. */
  lemma LengthIsNoIndex(key: string)
    ensures forall k: nat :: key == DecimalString(k) ==> key != "length"
  {
    forall k: nat | key == DecimalString(k)
      ensures key != "length"
    {
      assert '0' <= DecimalString(k)[0] <= '9';
    }
  }

  lemma DecimalStringUnique(k: nat)
    ensures forall j: nat :: DecimalString(j) == DecimalString(k) ==> j == k
  {
    forall j: nat | DecimalString(j) == DecimalString(k) {
      DecimalStringInjective(j, k);
    }
  }

  lemma DigitInjective(a: nat, b: nat)
    requires a < 10 && b < 10 && Digit(a) == Digit(b)
    ensures a == b
  {
  }
}

=== FILE: legacy_dom_component.dfy ===
/** The older wrapper class of lib/ngx-dom-component.class.ts. It differs
    from lib/classes/NgxDOMComponent.ts in four ways: its option check lets
    a NaN index through, its binder reads both metadata sources itself and
    handles each `property-decorator` key once, its `getChanges` reports
    every differ item without filtering, and its constructor resolves the
    component factory before reading `createComponent` from the container. */
module LegacyDomComponent {
  import opened Wrappers
  import opened JsValue
  import opened MetadataEntry
  import opened Binding
  import opened Host
  import DomComponent

  // ---------------------------------------------------------------------
  // Options (lines 32-39)
  // ---------------------------------------------------------------------

  /** `checkNgxDOMComponentCreateOptions`: as normalisation, except that
      only a non-number index becomes `undefined`; NaN is a number and stays. */
  function CheckNgxDOMComponentCreateOptions(o: Options): (r: Result<Options, Exception>)
    ensures TypeOf(o.viewContainerRef) != "object" ==> r == Failure(Error("Invalid viewContainerRef"))
    ensures TypeOf(o.viewContainerRef) == "object" && !o.componentType.Func? ==>
              r == Failure(Error("Invalid component"))
    ensures r.Success? <==> TypeOf(o.viewContainerRef) == "object" && o.componentType.Func?
    ensures r.Success? ==>
              && r.value.viewContainerRef == o.viewContainerRef
              && r.value.componentType == o.componentType
              && (TypeOf(o.inputs) == "object" ==> r.value.inputs == o.inputs)
              && (TypeOf(o.inputs) != "object" ==> r.value.inputs == Obj(map[]))
              && (TypeOf(o.outputs) == "object" ==> r.value.outputs == o.outputs)
              && (TypeOf(o.outputs) != "object" ==> r.value.outputs == Obj(map[]))
              && (o.index.Num? || o.index.NaN? ==> r.value.index == o.index)
              && (!o.index.Num? && !o.index.NaN? ==> r.value.index == Undefined)
  {
    if TypeOf(o.viewContainerRef) != "object" then Failure(Error("Invalid viewContainerRef"))
    else if TypeOf(o.componentType) != "function" then Failure(Error("Invalid component"))
    else
      var inputs := if TypeOf(o.inputs) != "object" then Obj(map[]) else o.inputs;
      var outputs := if TypeOf(o.outputs) != "object" then Obj(map[]) else o.outputs;
      var index := if TypeOf(o.index) != "number" then Undefined else o.index;
      Success(o.(inputs := inputs, outputs := outputs, index := index))
  }

  /** The two option checks agree on every input except a NaN index, which
      the older one keeps and the newer one drops. */
  lemma CheckVersusNormalize(o: Options)
    ensures !o.index.NaN? ==>
              CheckNgxDOMComponentCreateOptions(o) == DomComponent.NormalizeNgxDOMComponentOptions(o)
    ensures o.index.NaN? && CheckNgxDOMComponentCreateOptions(o).Success? ==>
              && CheckNgxDOMComponentCreateOptions(o).value.index == NaN
              && DomComponent.NormalizeNgxDOMComponentOptions(o).value.index == Undefined
  {
  }

  // ---------------------------------------------------------------------
  // Binding (lines 41-95)
  // ---------------------------------------------------------------------

  /** A bag tag seen as a decorator name: `'@' + ngMetadataName`. */
  function AtName(t: Tag): string {
    "@" + t.ngMetadataName
  }

  /** The `(property, decorator name)` pairs the binder visits: the
      reflection table's, with names as `toString()` prints them, then the
      bag's, with '@' prepended. */
  function LegacyTags(meta: ClassMeta): seq<Entry> {
    Flatten(Reflected(meta), s => s) + Flatten(Bagged(meta), AtName)
  }

  /** Reflection-table pairs come first, in order, with raw names. */
  lemma LegacyReflectAt(meta: ClassMeta, i: nat, j: nat)
    requires i < |Reflected(meta)| && j < |Reflected(meta)[i].items|
    ensures Offset(Reflected(meta), i) + j < Count(Reflected(meta)) <= |LegacyTags(meta)|
    ensures LegacyTags(meta)[Offset(Reflected(meta), i) + j]
            == Entry(Reflected(meta)[i].property, Reflected(meta)[i].items[j])
  {
    FlattenAt(Reflected(meta), s => s, i, j);
  }

  /** Bag pairs follow all reflection-table pairs, in order, with '@'
      prepended to the tag name. */
  lemma LegacyBagAt(meta: ClassMeta, i: nat, j: nat)
    requires i < |Bagged(meta)| && j < |Bagged(meta)[i].items|
    ensures Count(Reflected(meta)) + Offset(Bagged(meta), i) + j < |LegacyTags(meta)|
    ensures LegacyTags(meta)[Count(Reflected(meta)) + Offset(Bagged(meta), i) + j]
            == Entry(Bagged(meta)[i].property, "@" + Bagged(meta)[i].items[j].ngMetadataName)
  {
    FlattenAt(Bagged(meta), AtName, i, j);
  }

  /** The deduplication key `propertyName + '-' + decoratorName`. */
  function Key(e: Entry): string {
    e.propertyName + "-" + e.metadataName
  }

  /** The binder's state: the instance so far and the keys handled. */
  datatype Handled = Handled(bound: Bound, keys: seq<string>)

  /** `handlePropMetadata`: skip a key already handled; otherwise record it
      and bind '@Input' and '@Output' pairs, ignoring any other decorator. */
  function HandlePropMetadata(h: Handled, e: Entry, inputs: Value, outputs: Value): Result<Handled, Exception> {
    if Key(e) in h.keys then Success(h)
    else
      var b :- match e.metadataName
               case "@Input" => BindInput(h.bound, inputs, e.propertyName)
               case "@Output" => BindOutput(h.bound, outputs, e.propertyName)
               case _ => Success(h.bound);
      Success(Handled(b, h.keys + [Key(e)]))
  }

  function HandleAll(h: Handled, tags: seq<Entry>, inputs: Value, outputs: Value): Result<Handled, Exception>
    decreases |tags|
  {
    if tags == [] then Success(h)
    else
      var h' :- HandlePropMetadata(h, tags[0], inputs, outputs);
      HandleAll(h', tags[1..], inputs, outputs)
  }

  /** A parameter declared `= {}`: `undefined` takes the default. */
  function Defaulted(v: Value): Value {
    if v.Undefined? then Obj(map[]) else v
  }

  /** `injectPropertyBinds`. Both maps default to `{}`, so when neither is
      supplied nothing throws, no property is assigned and nothing is
      subscribed; only warnings are added. */
  function InjectPropertyBinds(st: Bound, meta: ClassMeta, inputs: Value, outputs: Value): (r: Result<Bound, Exception>)
    ensures inputs.Undefined? && outputs.Undefined? ==>
              && r.Success?
              && r.value.instance == st.instance
              && r.value.subscriptions == st.subscriptions
              && st.warnings <= r.value.warnings
  {
    HandleAllUnsupplied(Handled(st, []), LegacyTags(meta));
    var h :- HandleAll(Handled(st, []), LegacyTags(meta), Defaulted(inputs), Defaulted(outputs));
    Success(h.bound)
  }

  /** Where the older loop leaves the binder: after every pair, or just
      before the pair that throws. */
  function HandleReached(h: Handled, tags: seq<Entry>, inputs: Value, outputs: Value): (r: Handled)
    ensures HandleAll(h, tags, inputs, outputs).Success? ==> r == HandleAll(h, tags, inputs, outputs).value
    decreases |tags|
  {
    if tags == [] then h
    else
      match HandlePropMetadata(h, tags[0], inputs, outputs)
      case Failure(_) => h
      case Success(h') => HandleReached(h', tags[1..], inputs, outputs)
  }

  /** The instance `injectPropertyBinds` leaves behind, whether or not a
      pair throws: the component is already mounted. */
  function InjectReached(st: Bound, meta: ClassMeta, inputs: Value, outputs: Value): (r: Bound)
    ensures InjectPropertyBinds(st, meta, inputs, outputs).Success? ==>
              r == InjectPropertyBinds(st, meta, inputs, outputs).value
  {
    HandleReached(Handled(st, []), LegacyTags(meta), Defaulted(inputs), Defaulted(outputs)).bound
  }

  /** An older binding that throws stops at pair `k`: the binder left
      behind is the result of the pairs before `k`, and pair `k` throws
      the exception reported. */
  lemma {:induction false} HandleReachedAt(h: Handled, tags: seq<Entry>, inputs: Value, outputs: Value)
    requires HandleAll(h, tags, inputs, outputs).Failure?
    ensures var r := HandleReached(h, tags, inputs, outputs);
      exists k | 0 <= k < |tags| ::
        && HandleAll(h, tags[..k], inputs, outputs) == Success(r)
        && HandlePropMetadata(r, tags[k], inputs, outputs) == Failure(HandleAll(h, tags, inputs, outputs).error)
    decreases |tags|
  {
    var r := HandleReached(h, tags, inputs, outputs);
    var e := HandleAll(h, tags, inputs, outputs).error;
    assert tags != [];
    assert tags[..0] == [];
    match HandlePropMetadata(h, tags[0], inputs, outputs)
    case Failure(_) =>
      assert HandleAll(h, tags[..0], inputs, outputs) == Success(r);
    case Success(h1) =>
      HandleReachedAt(h1, tags[1..], inputs, outputs);
      var k :| 0 <= k < |tags[1..]|
        && HandleAll(h1, tags[1..][..k], inputs, outputs) == Success(r)
        && HandlePropMetadata(r, tags[1..][k], inputs, outputs) == Failure(e);
      HandlePrefixStep(h, h1, tags, k, inputs, outputs);
      assert tags[1..][k] == tags[k + 1];
  }

  lemma HandlePrefixStep(h: Handled, h1: Handled, tags: seq<Entry>, k: nat, inputs: Value, outputs: Value)
    requires k < |tags| && HandlePropMetadata(h, tags[0], inputs, outputs) == Success(h1)
    ensures HandleAll(h, tags[..k + 1], inputs, outputs) == HandleAll(h1, tags[1..][..k], inputs, outputs)
  {
    assert tags[..k + 1][1..] == tags[1..][..k];
    assert tags[..k + 1][0] == tags[0];
  }

  /** Omitting a map is the same as passing `{}`. */
  lemma InjectDefaults(st: Bound, meta: ClassMeta, inputs: Value, outputs: Value)
    ensures InjectPropertyBinds(st, meta, Undefined, outputs) == InjectPropertyBinds(st, meta, Obj(map[]), outputs)
    ensures InjectPropertyBinds(st, meta, inputs, Undefined) == InjectPropertyBinds(st, meta, inputs, Obj(map[]))
  {
  }

  /** With both maps empty every pair either is skipped or warns: binding
      completes, leaving the instance and the subscriptions as they were. */
  lemma {:induction false} HandleAllUnsupplied(h: Handled, tags: seq<Entry>)
    ensures HandleAll(h, tags, Obj(map[]), Obj(map[])).Success?
    ensures var r := HandleAll(h, tags, Obj(map[]), Obj(map[])).value.bound;
      && r.instance == h.bound.instance
      && r.subscriptions == h.bound.subscriptions
      && h.bound.warnings <= r.warnings
    decreases |tags|
  {
    if tags != [] {
      var h1 := HandlePropMetadata(h, tags[0], Obj(map[]), Obj(map[]));
      assert h1.Success?;
      assert h1.value.bound.instance == h.bound.instance;
      assert h1.value.bound.subscriptions == h.bound.subscriptions;
      assert h.bound.warnings <= h1.value.bound.warnings;
      HandleAllUnsupplied(h1.value, tags[1..]);
    }
  }

  /** The warnings and subscriptions a binding state holds. */
  function Effects(b: Bound): nat {
    |b.warnings| + |b.subscriptions|
  }

  lemma HandleStep(h: Handled, e: Entry, inputs: Value, outputs: Value)
    requires HandlePropMetadata(h, e, inputs, outputs).Success?
    ensures var r := HandlePropMetadata(h, e, inputs, outputs).value;
      && (Key(e) in h.keys ==> r == h)
      && (Key(e) !in h.keys ==> r.keys == h.keys + [Key(e)] && Effects(h.bound) <= Effects(r.bound) <= Effects(h.bound) + 1)
  {
  }

  /** Each key is handled at most once: the handled keys stay distinct,
      every visited pair's key ends up handled, nothing else does, and each
      newly handled key adds at most one warning or subscription. */
  lemma {:induction false} HandleAllOnce(h: Handled, tags: seq<Entry>, inputs: Value, outputs: Value)
    requires Distinct(h.keys)
    requires HandleAll(h, tags, inputs, outputs).Success?
    ensures var r := HandleAll(h, tags, inputs, outputs).value;
      && Distinct(r.keys)
      && h.keys <= r.keys
      && (forall e | e in tags :: Key(e) in r.keys)
      && (forall k | k in r.keys :: k in h.keys || exists e | e in tags :: Key(e) == k)
      && Effects(r.bound) <= Effects(h.bound) + |r.keys| - |h.keys|
    decreases |tags|
  {
    if tags != [] {
      var h1 := HandlePropMetadata(h, tags[0], inputs, outputs).value;
      HandleStep(h, tags[0], inputs, outputs);
      HandleAllOnce(h1, tags[1..], inputs, outputs);
      var r := HandleAll(h, tags, inputs, outputs).value;
      assert r == HandleAll(h1, tags[1..], inputs, outputs).value;
      assert Key(tags[0]) in h1.keys;
      assert forall k | k in h1.keys :: k in r.keys;
      assert forall e | e in tags :: e == tags[0] || e in tags[1..];
      assert forall e | e in tags[1..] :: e in tags;
    }
  }

  /** Across one binding, a key is never handled twice, so no more
      warnings and subscriptions appear than there are distinct keys. */
  lemma InjectAtMostOnce(st: Bound, meta: ClassMeta, inputs: Value, outputs: Value)
    requires InjectPropertyBinds(st, meta, inputs, outputs).Success?
    ensures var h := HandleAll(Handled(st, []), LegacyTags(meta), Defaulted(inputs), Defaulted(outputs)).value;
      && Distinct(h.keys)
      && (forall e | e in LegacyTags(meta) :: Key(e) in h.keys)
      && Effects(InjectPropertyBinds(st, meta, inputs, outputs).value) <= Effects(st) + |h.keys|
  {
    HandleAllOnce(Handled(st, []), LegacyTags(meta), Defaulted(inputs), Defaulted(outputs));
  }

  /** A property tagged Input in both sources and left without a value:
      the newer wrapper warns twice, the older one once. */
  lemma DoubleTagDifference(st: Bound, p: string, inputs: Value, outputs: Value)
    requires !Nullish(inputs) && !outputs.Undefined?
    requires !Truthy(ValueOf(inputs, p))
    ensures var meta := ClassMeta(Some([Slot(p, ["@Input"])]), Some([Slot(p, [Tag("Input")])]));
      && DomComponent.BindAll(st, GetNgxEntryComponentMetaData(meta), inputs, outputs)
         == Success(st.(warnings := st.warnings + [MissingInput(p), MissingInput(p)]))
      && InjectPropertyBinds(st, meta, inputs, outputs)
         == Success(st.(warnings := st.warnings + [MissingInput(p)]))
  {
    var meta := ClassMeta(Some([Slot(p, ["@Input"])]), Some([Slot(p, [Tag("Input")])]));
    var e := Entry(p, "Input");
    assert StripAt("@Input") == "Input";
    FlattenSingle(p, "@Input", StripAt);
    FlattenSingle(p, Tag("Input"), NameOf);
    assert GetNgxEntryComponentMetaData(meta) == [e, e];
    DomComponent.BindNoDedup(st, p, inputs, outputs);

    var d := Entry(p, "@Input");
    FlattenSingle(p, "@Input", s => s);
    FlattenSingle(p, Tag("Input"), AtName);
    assert AtName(Tag("Input")) == "@Input";
    assert LegacyTags(meta) == [d, d];
    var once := st.(warnings := st.warnings + [MissingInput(p)]);
    var h1 := Handled(once, [Key(d)]);
    assert [] + [Key(d)] == [Key(d)];
    assert BindInput(st, inputs, p) == Success(once);
    assert HandlePropMetadata(Handled(st, []), d, inputs, outputs) == Success(h1);
    assert HandlePropMetadata(h1, d, inputs, outputs) == Success(h1);
    assert [d, d][1..] == [d];
    assert [d][1..] == [];
    assert HandleAll(h1, [d], inputs, outputs) == Success(h1);
  }

  /** A pair the older binder visits and an entry the newer one visits
      bind the same property the same way. */
  predicate BindsAlike(t: Entry, e: Entry) {
    && t.propertyName == e.propertyName
    && (t.metadataName == "@Input" <==> e.metadataName == "Input")
    && (t.metadataName == "@Output" <==> e.metadataName == "Output")
  }

  /** When no key repeats and no reflected decorator is named 'Input' or
      'Output' without its '@', the older binder does exactly what the
      newer one does on the retrieved metadata, given the defaulted maps:
      the same instance, subscriptions and warnings, or the same
      exception. The two differ only through deduplication and through
      the '@' convention. */
  lemma InjectAsBindAll(st: Bound, meta: ClassMeta, inputs: Value, outputs: Value)
    requires forall i, j | 0 <= i < j < |LegacyTags(meta)| :: Key(LegacyTags(meta)[i]) != Key(LegacyTags(meta)[j])
    requires forall slot | slot in Reflected(meta) :: "Input" !in slot.items && "Output" !in slot.items
    ensures InjectPropertyBinds(st, meta, inputs, outputs)
            == DomComponent.BindAll(st, GetNgxEntryComponentMetaData(meta), Defaulted(inputs), Defaulted(outputs))
    ensures InjectReached(st, meta, inputs, outputs)
            == DomComponent.BindReached(st, GetNgxEntryComponentMetaData(meta), Defaulted(inputs), Defaulted(outputs))
  {
    TagsAlike(meta);
    HandleAllAsBindAll(Handled(st, []), LegacyTags(meta), GetNgxEntryComponentMetaData(meta),
                       Defaulted(inputs), Defaulted(outputs));
    HandleReachedAsBindReached(Handled(st, []), LegacyTags(meta), GetNgxEntryComponentMetaData(meta),
                               Defaulted(inputs), Defaulted(outputs));
  }

  /** The older binder's pairs and the retrieved entries bind alike,
      position by position. */
  lemma TagsAlike(meta: ClassMeta)
    requires forall slot | slot in Reflected(meta) :: "Input" !in slot.items && "Output" !in slot.items
    ensures |LegacyTags(meta)| == |GetNgxEntryComponentMetaData(meta)|
    ensures forall i | 0 <= i < |LegacyTags(meta)| :: BindsAlike(LegacyTags(meta)[i], GetNgxEntryComponentMetaData(meta)[i])
  {
    var tags := LegacyTags(meta);
    var metadata := GetNgxEntryComponentMetaData(meta);
    ReflectedAlike(meta);
    BaggedAlike(meta);
    var a, b := Flatten(Reflected(meta), s => s), Flatten(Bagged(meta), AtName);
    var c, d := Flatten(Reflected(meta), StripAt), Flatten(Bagged(meta), NameOf);
    assert tags == a + b;
    assert metadata == c + d;
    forall i | 0 <= i < |tags|
      ensures BindsAlike(tags[i], metadata[i])
    {
      if i < |a| {
        assert tags[i] == a[i] && metadata[i] == c[i];
      } else {
        assert tags[i] == b[i - |a|] && metadata[i] == d[i - |a|];
      }
    }
  }

  lemma ReflectedAlike(meta: ClassMeta)
    requires forall slot | slot in Reflected(meta) :: "Input" !in slot.items && "Output" !in slot.items
    ensures |Flatten(Reflected(meta), s => s)| == |Flatten(Reflected(meta), StripAt)|
    ensures forall i | 0 <= i < |Flatten(Reflected(meta), s => s)| ::
              BindsAlike(Flatten(Reflected(meta), s => s)[i], Flatten(Reflected(meta), StripAt)[i])
  {
    forall slot, x | slot in Reflected(meta) && x in slot.items
      ensures BindsAlike(Entry(slot.property, x), Entry(slot.property, StripAt(x)))
    {
      if |x| > 0 && x[0] == '@' {
        assert x == "@" + x[1..];
      }
    }
    FlattenAlike(Reflected(meta), s => s, StripAt);
  }

  lemma BaggedAlike(meta: ClassMeta)
    ensures |Flatten(Bagged(meta), AtName)| == |Flatten(Bagged(meta), NameOf)|
    ensures forall i | 0 <= i < |Flatten(Bagged(meta), AtName)| ::
              BindsAlike(Flatten(Bagged(meta), AtName)[i], Flatten(Bagged(meta), NameOf)[i])
  {
    forall slot, x | slot in Bagged(meta) && x in slot.items
      ensures BindsAlike(Entry(slot.property, AtName(x)), Entry(slot.property, NameOf(x)))
    {
      assert AtName(x)[1..] == NameOf(x);
    }
    FlattenAlike(Bagged(meta), AtName, NameOf);
  }

  /** Flattening the same slots under two namings that bind alike gives
      lists that bind alike position by position. */
  lemma {:induction false} FlattenAlike<T>(slots: seq<Slot<T>>, f: T -> string, g: T -> string)
    requires forall slot, x | slot in slots && x in slot.items ::
               BindsAlike(Entry(slot.property, f(x)), Entry(slot.property, g(x)))
    ensures |Flatten(slots, f)| == |Flatten(slots, g)|
    ensures forall i | 0 <= i < |Flatten(slots, f)| :: BindsAlike(Flatten(slots, f)[i], Flatten(slots, g)[i])
    decreases |slots|
  {
    if slots != [] {
      var s := slots[0];
      assert s in slots;
      forall slot, x | slot in slots[1..] && x in slot.items
        ensures BindsAlike(Entry(slot.property, f(x)), Entry(slot.property, g(x)))
      {
        assert slot in slots;
      }
      FlattenAlike(slots[1..], f, g);
      var hf := if |s.items| > 0 then seq(|s.items|, j requires 0 <= j < |s.items| => Entry(s.property, f(s.items[j]))) else [];
      var hg := if |s.items| > 0 then seq(|s.items|, j requires 0 <= j < |s.items| => Entry(s.property, g(s.items[j]))) else [];
      var tf, tg := Flatten(slots[1..], f), Flatten(slots[1..], g);
      assert Flatten(slots, f) == hf + tf;
      assert Flatten(slots, g) == hg + tg;
      forall i | 0 <= i < |hf + tf|
        ensures BindsAlike((hf + tf)[i], (hg + tg)[i])
      {
        if i < |hf| {
          assert s.items[i] in s.items;
        } else {
          assert (hf + tf)[i] == tf[i - |hf|] && (hg + tg)[i] == tg[i - |hf|];
        }
      }
    }
  }

  /** Over pairs whose keys are new and distinct, the older binder's loop
      is the newer one's on entries that bind alike. */
  lemma {:induction false} HandleAllAsBindAll(h: Handled, tags: seq<Entry>, metadata: seq<Entry>, inputs: Value, outputs: Value)
    requires |tags| == |metadata|
    requires forall i | 0 <= i < |tags| :: BindsAlike(tags[i], metadata[i])
    requires forall i | 0 <= i < |tags| :: Key(tags[i]) !in h.keys
    requires forall i, j | 0 <= i < j < |tags| :: Key(tags[i]) != Key(tags[j])
    ensures match HandleAll(h, tags, inputs, outputs)
            case Success(r) => DomComponent.BindAll(h.bound, metadata, inputs, outputs) == Success(r.bound)
            case Failure(e) => DomComponent.BindAll(h.bound, metadata, inputs, outputs) == Failure(e)
    decreases |tags|
  {
    if tags != [] {
      var t, e := tags[0], metadata[0];
      HandleAlike(h, t, e, inputs, outputs);
      match DomComponent.BindEntry(h.bound, e, inputs, outputs)
      case Failure(_) =>
      case Success(b) =>
        var h1 := Handled(b, h.keys + [Key(t)]);
        AlikeTail(h, h1, tags, metadata);
        HandleAllAsBindAll(h1, tags[1..], metadata[1..], inputs, outputs);
    }
  }

  /** Under the same conditions the older loop stops where the newer one
      stops, with the same instance, subscriptions and warnings. */
  lemma {:induction false} HandleReachedAsBindReached(h: Handled, tags: seq<Entry>, metadata: seq<Entry>, inputs: Value, outputs: Value)
    requires |tags| == |metadata|
    requires forall i | 0 <= i < |tags| :: BindsAlike(tags[i], metadata[i])
    requires forall i | 0 <= i < |tags| :: Key(tags[i]) !in h.keys
    requires forall i, j | 0 <= i < j < |tags| :: Key(tags[i]) != Key(tags[j])
    ensures HandleReached(h, tags, inputs, outputs).bound == DomComponent.BindReached(h.bound, metadata, inputs, outputs)
    decreases |tags|
  {
    if tags != [] {
      var t, e := tags[0], metadata[0];
      HandleAlike(h, t, e, inputs, outputs);
      match DomComponent.BindEntry(h.bound, e, inputs, outputs)
      case Failure(_) =>
      case Success(b) =>
        var h1 := Handled(b, h.keys + [Key(t)]);
        AlikeTail(h, h1, tags, metadata);
        HandleReachedAsBindReached(h1, tags[1..], metadata[1..], inputs, outputs);
    }
  }

  lemma AlikeTail(h: Handled, h1: Handled, tags: seq<Entry>, metadata: seq<Entry>)
    requires |tags| == |metadata| > 0
    requires forall i | 0 <= i < |tags| :: BindsAlike(tags[i], metadata[i])
    requires forall i | 0 <= i < |tags| :: Key(tags[i]) !in h.keys
    requires forall i, j | 0 <= i < j < |tags| :: Key(tags[i]) != Key(tags[j])
    requires h1.keys == h.keys + [Key(tags[0])]
    ensures forall i | 0 <= i < |tags[1..]| :: BindsAlike(tags[1..][i], metadata[1..][i])
    ensures forall i | 0 <= i < |tags[1..]| :: Key(tags[1..][i]) !in h1.keys
    ensures forall i, j | 0 <= i < j < |tags[1..]| :: Key(tags[1..][i]) != Key(tags[1..][j])
  {
    forall i | 0 <= i < |tags[1..]|
      ensures Key(tags[1..][i]) !in h1.keys
      ensures BindsAlike(tags[1..][i], metadata[1..][i])
    {
      assert tags[1..][i] == tags[i + 1] && metadata[1..][i] == metadata[i + 1];
    }
  }

  /** One new pair is bound as the newer binder binds an entry alike. */
  lemma HandleAlike(h: Handled, t: Entry, e: Entry, inputs: Value, outputs: Value)
    requires BindsAlike(t, e) && Key(t) !in h.keys
    ensures match DomComponent.BindEntry(h.bound, e, inputs, outputs)
            case Success(b) => HandlePropMetadata(h, t, inputs, outputs) == Success(Handled(b, h.keys + [Key(t)]))
            case Failure(x) => HandlePropMetadata(h, t, inputs, outputs) == Failure(x)
  {
  }

  lemma FlattenSingle<T>(p: string, x: T, name: T -> string)
    ensures Flatten([Slot(p, [x])], name) == [Entry(p, name(x))]
  {
    var slots := [Slot(p, [x])];
    assert slots[1..] == [];
    var head := seq(1, j requires 0 <= j < 1 => Entry(p, name([x][j])));
    assert head == [Entry(p, name(x))];
  }

  /** The key is a plain concatenation, so two different pairs can share
      it: the decorator 'y-@Input' on 'x' and '@Input' on 'x-y' both give
      'x-y-@Input', and whichever comes second is skipped. */
  lemma KeyCollision(st: Bound, inputs: Value, outputs: Value)
    ensures Key(Entry("x", "y-@Input")) == Key(Entry("x-y", "@Input"))
    ensures HandleAll(Handled(st, []), [Entry("x", "y-@Input"), Entry("x-y", "@Input")], inputs, outputs)
            == Success(Handled(st, ["x-y-@Input"]))
  {
    var a, b := Entry("x", "y-@Input"), Entry("x-y", "@Input");
    assert Key(a) == "x-y-@Input";
    assert Key(b) == "x-y-@Input";
    var h1 := Handled(st, ["x-y-@Input"]);
    assert [] + [Key(a)] == ["x-y-@Input"];
    assert HandlePropMetadata(Handled(st, []), a, inputs, outputs) == Success(h1);
    assert HandlePropMetadata(h1, b, inputs, outputs) == Success(h1);
    assert [a, b][1..] == [b];
    assert [b][1..] == [];
    assert HandleAll(h1, [b], inputs, outputs) == Success(h1);
  }

  // ---------------------------------------------------------------------
  // Changes and insertion (lines 137-180)
  // ---------------------------------------------------------------------

  /** `getChanges` without filtering: every differ item yields a change. */
  function LegacyGetChanges(diff: Option<seq<ChangeRecord>>): (r: Option<Changes>)
    ensures r.None? <==> diff.None? || |diff.value| == 0
    ensures r.Some? ==> forall k :: k in r.value <==> exists i | 0 <= i < |diff.value| :: diff.value[i].key == k
    ensures r.Some? ==> NoFirstChange(r.value)
  {
    match diff
    case None => None
    case Some(items) =>
      var r := Collect(None, items, k => true);
      assert |items| > 0 ==> items[0].key in r.value;
      r
  }

  /** The newer `getChanges` reports a subset of what the older one does,
      and the same when every reported key is tagged 'Input'. */
  lemma FilterVersusUnfiltered(metadata: seq<Entry>, diff: Option<seq<ChangeRecord>>)
    ensures DomComponent.GetChanges(metadata, diff).Some? ==> LegacyGetChanges(diff).Some?
    ensures DomComponent.GetChanges(metadata, diff).Some? ==>
              DomComponent.GetChanges(metadata, diff).value.Keys <= LegacyGetChanges(diff).value.Keys
    ensures diff.Some? && |diff.value| > 0 &&
            (forall i | 0 <= i < |diff.value| :: DomComponent.TaggedInput(metadata, diff.value[i].key)) ==>
              DomComponent.GetChanges(metadata, diff).value.Keys == LegacyGetChanges(diff).value.Keys
  {
  }

  /** With no index and no new container, the view is appended: inserted
      at the current container's length. */
  lemma InsertAppends(props: map<string, Value>, n: nat)
    requires "length" in props && props["length"] == Num(n)
    requires HasMethod(Obj(props), "insert")
    ensures Insert(Obj(props), Undefined, Undefined) == Inserted(Obj(props), Success(InsertView(Obj(props), Num(n))))
    ensures Insert(Obj(props), Null, Undefined) == Inserted(Obj(props), Success(InsertView(Obj(props), Num(n))))
  {
  }

  // ---------------------------------------------------------------------
  // Construction (lines 102-114, 173-186)
  // ---------------------------------------------------------------------

  /** The older constructor. It resolves the component factory as a
      statement of its own before reading `createComponent` from the
      container, creates the differ, binds, and runs `detectChanges` with
      the unfiltered `getChanges`. The wrapper's metadata is the pairs the
      binder visited. */
  function LegacyConstruct(options: Options, meta: ClassMeta, created: map<string, Value>, diff: Option<seq<ChangeRecord>>)
    : (r: DomComponent.Construction)
    ensures CheckNgxDOMComponentCreateOptions(options).Failure? ==>
              r == DomComponent.Construction([], None, Failure(CheckNgxDOMComponentCreateOptions(options).error))
    ensures options.viewContainerRef.Null? && options.componentType.Func? ==>
              r == DomComponent.Construction([ResolveFactory(options.componentType)], None, Failure(NullishRead("createComponent")))
    ensures CheckNgxDOMComponentCreateOptions(options).Success? && !Nullish(options.viewContainerRef)
            && !HasMethod(options.viewContainerRef, "createComponent") ==>
              r == DomComponent.Construction([ResolveFactory(options.componentType)], None, Failure(NotCallable("createComponent")))
    ensures r.outcome.Success? ==> HasMethod(options.viewContainerRef, "createComponent")
  {
    match CheckNgxDOMComponentCreateOptions(options)
    case Failure(e) => DomComponent.Construction([], None, Failure(e))
    case Success(o) =>
      if Nullish(o.viewContainerRef) then
        DomComponent.Construction([ResolveFactory(o.componentType)], None, Failure(NullishRead("createComponent")))
      else if !HasMethod(o.viewContainerRef, "createComponent") then
        DomComponent.Construction([ResolveFactory(o.componentType)], None, Failure(NotCallable("createComponent")))
      else LegacyCreate(o, meta, created, diff)
  }

  /** The older constructor from `createComponent` on, with checked options
      and a container that has a `createComponent` method. */
  function LegacyCreate(o: Options, meta: ClassMeta, created: map<string, Value>, diff: Option<seq<ChangeRecord>>)
    : (r: DomComponent.Construction)
    ensures |r.calls| >= 3
    ensures r.calls[..3] == [ResolveFactory(o.componentType), CreateComponent(o.viewContainerRef, o.index), CreateDiffer]
    ensures r.outcome.Success? ==>
              InjectPropertyBinds(Bound(created, [], []), meta, o.inputs, o.outputs) == Success(r.outcome.value.bound)
  {
    var calls := [ResolveFactory(o.componentType), CreateComponent(o.viewContainerRef, o.index), CreateDiffer];
    match InjectPropertyBinds(Bound(created, [], []), meta, o.inputs, o.outputs)
    case Failure(e) => DomComponent.Construction(calls, Some(InjectReached(Bound(created, [], []), meta, o.inputs, o.outputs)), Failure(e))
    case Success(bound) =>
      var w := DomComponent.Wrapper(o.viewContainerRef, LegacyTags(meta), bound);
      DomComponent.Construction(calls + DetectChanges(bound.instance, LegacyGetChanges(diff)), Some(bound), Success(w))
  }

  /** A successful older construction makes the same three calls first as
      the newer one, binds with `injectPropertyBinds`, and calls
      `ngOnChanges` at most once, last, exactly when the hook is a function
      and the differ reported some item. */
  lemma LegacyConstructSequence(options: Options, meta: ClassMeta, created: map<string, Value>, diff: Option<seq<ChangeRecord>>)
    requires LegacyConstruct(options, meta, created, diff).outcome.Success?
    ensures CheckNgxDOMComponentCreateOptions(options).Success?
    ensures var o := CheckNgxDOMComponentCreateOptions(options).value;
            var r := LegacyConstruct(options, meta, created, diff);
            var bound := r.outcome.value.bound;
      && r.calls[..3] == [ResolveFactory(o.componentType), CreateComponent(o.viewContainerRef, o.index), CreateDiffer]
      && InjectPropertyBinds(Bound(created, [], []), meta, o.inputs, o.outputs) == Success(bound)
      && (forall i | 0 <= i < |r.calls| - 1 :: !r.calls[i].NgOnChanges?)
      && ((exists c :: NgOnChanges(c) in r.calls) <==>
            Lookup(bound.instance, "ngOnChanges").Func? && diff.Some? && |diff.value| > 0)
  {
    var o := CheckNgxDOMComponentCreateOptions(options).value;
    assert LegacyConstruct(options, meta, created, diff) == LegacyCreate(o, meta, created, diff);
    LegacyCreateHook(o, meta, created, diff);
  }

  lemma LegacyCreateHook(o: Options, meta: ClassMeta, created: map<string, Value>, diff: Option<seq<ChangeRecord>>)
    requires LegacyCreate(o, meta, created, diff).outcome.Success?
    ensures var r := LegacyCreate(o, meta, created, diff);
            var bound := r.outcome.value.bound;
      && (forall i | 0 <= i < |r.calls| - 1 :: !r.calls[i].NgOnChanges?)
      && ((exists c :: NgOnChanges(c) in r.calls) <==>
            Lookup(bound.instance, "ngOnChanges").Func? && diff.Some? && |diff.value| > 0)
  {
    var r := LegacyCreate(o, meta, created, diff);
    var bound := InjectPropertyBinds(Bound(created, [], []), meta, o.inputs, o.outputs).value;
    var calls: seq<HostCall> := [ResolveFactory(o.componentType), CreateComponent(o.viewContainerRef, o.index), CreateDiffer];
    var tail := DetectChanges(bound.instance, LegacyGetChanges(diff));
    assert r.calls == calls + tail;
    forall i | 0 <= i < |calls + tail| - 1
      ensures !(calls + tail)[i].NgOnChanges?
    {
      if i >= 3 {
        assert (calls + tail)[i] == tail[i - 3];
      }
    }
    if exists c :: NgOnChanges(c) in calls + tail {
      var c :| NgOnChanges(c) in calls + tail;
      assert NgOnChanges(c) in tail;
    }
    if Lookup(bound.instance, "ngOnChanges").Func? && diff.Some? && |diff.value| > 0 {
      var c :| NgOnChanges(c) in tail;
      assert (calls + tail)[3 + |tail| - 1] == tail[|tail| - 1];
      assert NgOnChanges(c) in calls + tail;
    }
  }

  /** With a null container the older constructor has already asked for
      the component factory when it throws; the newer one throws first. */
  lemma NullContainerCalls(options: Options, meta: ClassMeta, created: map<string, Value>, diff: Option<seq<ChangeRecord>>)
    requires options.viewContainerRef.Null? && options.componentType.Func?
    ensures DomComponent.Construct(options, meta, created, diff)
            == DomComponent.Construction([], None, Failure(NullishRead("createComponent")))
    ensures LegacyConstruct(options, meta, created, diff)
            == DomComponent.Construction([ResolveFactory(options.componentType)], None, Failure(NullishRead("createComponent")))
  {
  }

  /** The older constructor, once past `createComponent`, leaves the
      component mounted with what `injectPropertyBinds` did: all of it when
      it returns, the pairs before the throwing one when it throws. */
  lemma LegacyConstructKeepsBindings(options: Options, meta: ClassMeta, created: map<string, Value>, diff: Option<seq<ChangeRecord>>)
    requires CheckNgxDOMComponentCreateOptions(options).Success?
    requires HasMethod(options.viewContainerRef, "createComponent")
    ensures var o := CheckNgxDOMComponentCreateOptions(options).value;
            var tags := LegacyTags(meta);
            var start := Handled(Bound(created, [], []), []);
            var r := LegacyConstruct(options, meta, created, diff);
      && r.mounted.Some?
      && (r.outcome.Success? ==> r.mounted == Some(r.outcome.value.bound))
      && (r.outcome.Failure? ==>
            exists k | 0 <= k < |tags| ::
              && HandleAll(start, tags[..k], Defaulted(o.inputs), Defaulted(o.outputs)).Success?
              && HandleAll(start, tags[..k], Defaulted(o.inputs), Defaulted(o.outputs)).value.bound == r.mounted.value
              && HandlePropMetadata(HandleReached(start, tags, Defaulted(o.inputs), Defaulted(o.outputs)), tags[k],
                                    Defaulted(o.inputs), Defaulted(o.outputs)) == Failure(r.outcome.error))
  {
    var o := CheckNgxDOMComponentCreateOptions(options).value;
    var start := Handled(Bound(created, [], []), []);
    assert LegacyConstruct(options, meta, created, diff) == LegacyCreate(o, meta, created, diff);
    if HandleAll(start, LegacyTags(meta), Defaulted(o.inputs), Defaulted(o.outputs)).Failure? {
      HandleReachedAt(start, LegacyTags(meta), Defaulted(o.inputs), Defaulted(o.outputs));
    }
  }

  /** A container that passes the `typeof` check but has no
      `createComponent` method (an array, a plain `{}`) makes both
      constructors throw after resolving the factory. */
  lemma MissingCreateComponent(options: Options, meta: ClassMeta, created: map<string, Value>, diff: Option<seq<ChangeRecord>>)
    requires TypeOf(options.viewContainerRef) == "object" && !options.viewContainerRef.Null?
    requires !HasMethod(options.viewContainerRef, "createComponent") && options.componentType.Func?
    ensures DomComponent.Construct(options, meta, created, diff)
            == DomComponent.Construction([ResolveFactory(options.componentType)], None, Failure(NotCallable("createComponent")))
    ensures LegacyConstruct(options, meta, created, diff)
            == DomComponent.Construction([ResolveFactory(options.componentType)], None, Failure(NotCallable("createComponent")))
  {
  }

  /** A NaN index reaches Angular's `createComponent` from the older
      constructor; the newer one passes `undefined` instead. */
  lemma NaNIndexReachesCreate(options: Options, meta: ClassMeta, created: map<string, Value>, diff: Option<seq<ChangeRecord>>)
    requires options.viewContainerRef.Obj? && HasMethod(options.viewContainerRef, "createComponent")
    requires options.componentType.Func? && options.index.NaN?
    ensures LegacyConstruct(options, meta, created, diff).calls[1] == CreateComponent(options.viewContainerRef, NaN)
    ensures DomComponent.Construct(options, meta, created, diff).calls[1] == CreateComponent(options.viewContainerRef, Undefined)
  {
    var o := CheckNgxDOMComponentCreateOptions(options).value;
    assert LegacyConstruct(options, meta, created, diff) == LegacyCreate(o, meta, created, diff);
    var n := DomComponent.NormalizeNgxDOMComponentOptions(options).value;
    assert DomComponent.Construct(options, meta, created, diff) == DomComponent.Create(n, meta, created, diff);
  }
}

=== FILE: metadata_entry.dfy ===
/** The registry of input/output tags kept on a component class
    (lib/classes/MetadataEntry.ts). A class carries two sources of tags: the
    reflection table Angular's own decorators write (`propMetadata`) and the
    property bag `__prop__metadata__` that `SetNgxEntryComponentMetaData`
    writes. Both map a property name to a list of tags; keys are kept as an
    insertion-ordered sequence of slots. */
module MetadataEntry {
  import opened Wrappers

  /** A `(propertyName, metadataName)` pair, e.g. `("title", "Input")`. */
  datatype Entry = Entry(propertyName: string, metadataName: string)

  /** The tag object `{ ngMetadataName }` stored in the bag. */
  datatype Tag = Tag(ngMetadataName: string)

  /** One property of a metadata object: its key and the list under it. */
  datatype Slot<T> = Slot(property: string, items: seq<T>)

  /** The bag `__prop__metadata__`. */
  type Bag = seq<Slot<Tag>>

  /** The reflection table; each decorator is represented by its `toString()`. */
  type ReflectTable = seq<Slot<string>>

  /** The metadata a class carries; `None` where the source is absent. */
  datatype ClassMeta = ClassMeta(reflect: Option<ReflectTable>, bag: Option<Bag>)

  predicate Distinct<T(==)>(s: seq<T>) {
    forall i, j | 0 <= i < j < |s| :: s[i] != s[j]
  }

  /** Property keys are distinct and no list holds the same tag twice. */
  ghost predicate WellFormed(b: Bag) {
    && (forall i, j | 0 <= i < j < |b| :: b[i].property != b[j].property)
    && (forall i | 0 <= i < |b| :: Distinct(b[i].items))
  }

  /** The property names mentioned by a list of entries. */
  ghost function Names(es: seq<Entry>): set<string> {
    set e | e in es :: e.propertyName
  }

  // ---------------------------------------------------------------------
  // Registration (lines 12-45)
  // ---------------------------------------------------------------------

  /** The position of the slot keyed `p`, the first one if several are. */
  function FindSlot<T>(slots: seq<Slot<T>>, p: string): (r: Option<nat>)
    ensures r.Some? ==> r.value < |slots| && slots[r.value].property == p
    ensures r.Some? ==> forall k | 0 <= k < r.value :: slots[k].property != p
    ensures r.None? ==> forall k | 0 <= k < |slots| :: slots[k].property != p
  {
    if slots == [] then None
    else if slots[0].property == p then Some(0)
    else match FindSlot(slots[1..], p)
      case None => None
      case Some(i) => Some(i + 1)
  }

  /** The list `metadataList[p]`, or the empty list when `p` has none. */
  function TagsOf(b: Bag, p: string): seq<Tag> {
    match FindSlot(b, p)
    case None => []
    case Some(i) => b[i].items
  }

  /** One iteration of the registration loop: make sure `e.propertyName`
      has a list, then push the tag unless one with the same name is there. */
  function AddTag(b: Bag, e: Entry): Bag {
    match FindSlot(b, e.propertyName)
    case None => b + [Slot(e.propertyName, [Tag(e.metadataName)])]
    case Some(i) =>
      if Tag(e.metadataName) in b[i].items then b
      else b[i := Slot(b[i].property, b[i].items + [Tag(e.metadataName)])]
  }

  /** The registration loop over all entries, in order. */
  function Register(b: Bag, es: seq<Entry>): Bag
    decreases |es|
  {
    if es == [] then b else Register(AddTag(b, es[0]), es[1..])
  }

  /** `SetNgxEntryComponentMetaData` as a function: create the bag if the
      class has none, then register every entry. The reflection table is
      not touched. */
  function SetMeta(m: ClassMeta, es: seq<Entry>): ClassMeta {
    m.(bag := Some(Register(m.bag.GetOr([]), es)))
  }

  /** The source's nested loops: an outer loop over the entries, a search
      for the property's list, and a search for a tag of the same name. */
  method SetNgxEntryComponentMetaData(target: ClassMeta, metadataEntries: seq<Entry>)
    returns (r: ClassMeta)
    ensures r == SetMeta(target, metadataEntries)
    ensures r.reflect == target.reflect && r.bag.Some?
    ensures metadataEntries == [] ==> r.bag == Some(target.bag.GetOr([]))
  {
    var metadataList := target.bag.GetOr([]);
    var i := 0;
    while i < |metadataEntries|
      invariant 0 <= i <= |metadataEntries|
      invariant Register(metadataList, metadataEntries[i..])
             == Register(target.bag.GetOr([]), metadataEntries)
    {
      metadataList := AddTagInPlace(metadataList, metadataEntries[i]);
      assert metadataEntries[i..][1..] == metadataEntries[i + 1..];
      i := i + 1;
    }
    assert metadataEntries[i..] == [];
    r := target.(bag := Some(metadataList));
  }

  /** The body of the registration loop: find (or create) the property's
      list, then look for a tag of the same name and push one if absent. */
  method AddTagInPlace(metadataList: Bag, e: Entry) returns (r: Bag)
    ensures r == AddTag(metadataList, e)
  {
    var k := 0;
    while k < |metadataList| && metadataList[k].property != e.propertyName
      invariant 0 <= k <= |metadataList|
      invariant forall x | 0 <= x < k :: metadataList[x].property != e.propertyName
    {
      k := k + 1;
    }
    FindSlotIsFirst(metadataList, e.propertyName, k);
    r := metadataList;
    if k == |r| {
      r := r + [Slot(e.propertyName, [])];
    }
    var tags := r[k].items;
    var j := 0;
    while j < |tags| && tags[j].ngMetadataName != e.metadataName
      invariant 0 <= j <= |tags|
      invariant forall x | 0 <= x < j :: tags[x] != Tag(e.metadataName)
    {
      j := j + 1;
    }
    if j == |tags| {
      r := r[k := Slot(r[k].property, tags + [Tag(e.metadataName)])];
    }
    if k == |metadataList| {
      assert tags == [] && j == 0;
      assert r[k] == Slot(e.propertyName, [Tag(e.metadataName)]);
      assert r[..k] == metadataList;
      assert r == r[..k] + [r[k]];
    } else if j == |tags| {
      assert Tag(e.metadataName) !in metadataList[k].items;
    } else {
      assert tags[j] == Tag(e.metadataName);
    }
  }

  /** A search that stops at `k` agrees with `FindSlot`. */
  lemma FindSlotIsFirst<T>(slots: seq<Slot<T>>, p: string, k: nat)
    requires k <= |slots|
    requires forall x | 0 <= x < k :: slots[x].property != p
    requires k < |slots| ==> slots[k].property == p
    ensures k == |slots| ==> FindSlot(slots, p) == None
    ensures k < |slots| ==> FindSlot(slots, p) == Some(k)
  {
    var r := FindSlot(slots, p);
    if r.Some? {
      assert r.value == k;
    }
  }

  /** `FindSlot` only looks at the keys. */
  lemma FindSlotSameKeys<T>(a: seq<Slot<T>>, b: seq<Slot<T>>, p: string)
    requires |a| == |b|
    requires forall k | 0 <= k < |a| :: a[k].property == b[k].property
    ensures FindSlot(a, p) == FindSlot(b, p)
  {
    match FindSlot(a, p)
    case None => FindSlotIsFirst(b, p, |b|);
    case Some(i) => FindSlotIsFirst(b, p, i);
  }

  lemma FindSlotAppend<T>(a: seq<Slot<T>>, s: Slot<T>, p: string)
    ensures FindSlot(a, p).Some? ==> FindSlot(a + [s], p) == FindSlot(a, p)
    ensures FindSlot(a, p).None? && s.property == p ==> FindSlot(a + [s], p) == Some(|a|)
    ensures FindSlot(a, p).None? && s.property != p ==> FindSlot(a + [s], p) == None
  {
    match FindSlot(a, p)
    case None =>
      if s.property == p {
        FindSlotIsFirst(a + [s], p, |a|);
      } else {
        FindSlotIsFirst(a + [s], p, |a| + 1);
      }
    case Some(i) => FindSlotIsFirst(a + [s], p, i);
  }

  /** What one iteration does to the list of every property. */
  lemma AddTagTags(b: Bag, e: Entry, p: string)
    ensures TagsOf(b, p) <= TagsOf(AddTag(b, e), p)
    ensures p != e.propertyName ==> TagsOf(AddTag(b, e), p) == TagsOf(b, p)
    ensures p == e.propertyName ==> Tag(e.metadataName) in TagsOf(AddTag(b, e), p)
    ensures forall t :: t in TagsOf(AddTag(b, e), p) <==>
              t in TagsOf(b, p) || (p == e.propertyName && t == Tag(e.metadataName))
  {
    match FindSlot(b, e.propertyName)
    case None =>
      FindSlotAppend(b, Slot(e.propertyName, [Tag(e.metadataName)]), p);
    case Some(i) =>
      if Tag(e.metadataName) !in b[i].items {
        var b' := b[i := Slot(b[i].property, b[i].items + [Tag(e.metadataName)])];
        FindSlotSameKeys(b, b', p);
      }
  }

  /** The registry after `Register` holds exactly the tags it held before
      plus the registered ones: every entry is recorded, and nothing that
      was not registered appears. */
  lemma {:induction false} RegisterTags(b: Bag, es: seq<Entry>, p: string, n: string)
    ensures Tag(n) in TagsOf(Register(b, es), p) <==> (Tag(n) in TagsOf(b, p) || Entry(p, n) in es)
    ensures TagsOf(b, p) <= TagsOf(Register(b, es), p)
    decreases |es|
  {
    if es != [] {
      AddTagTags(b, es[0], p);
      RegisterTags(AddTag(b, es[0]), es[1..], p, n);
      assert es == [es[0]] + es[1..];
    }
  }

  /** After registration every given entry's tag is under its property. */
  lemma RegisterRecords(b: Bag, es: seq<Entry>)
    ensures forall e | e in es :: Tag(e.metadataName) in TagsOf(Register(b, es), e.propertyName)
  {
    forall e | e in es
      ensures Tag(e.metadataName) in TagsOf(Register(b, es), e.propertyName)
    {
      RegisterTags(b, es, e.propertyName, e.metadataName);
    }
  }

  lemma AddTagWellFormed(b: Bag, e: Entry)
    requires WellFormed(b)
    ensures WellFormed(AddTag(b, e))
  {
    match FindSlot(b, e.propertyName)
    case None =>
    case Some(i) =>
      if Tag(e.metadataName) !in b[i].items {
        var b' := AddTag(b, e);
        forall x, y | 0 <= x < y < |b'[i].items|
          ensures b'[i].items[x] != b'[i].items[y]
        {
          if y == |b[i].items| {
            assert b'[i].items[x] == b[i].items[x];
          }
        }
      }
  }

  /** Registration keeps the keys distinct and never duplicates a tag. */
  lemma {:induction false} RegisterWellFormed(b: Bag, es: seq<Entry>)
    requires WellFormed(b)
    ensures WellFormed(Register(b, es))
    decreases |es|
  {
    if es != [] {
      AddTagWellFormed(b, es[0]);
      RegisterWellFormed(AddTag(b, es[0]), es[1..]);
    }
  }

  /** Registering entries that are all present already changes nothing. */
  lemma {:induction false} RegisterPresent(b: Bag, es: seq<Entry>)
    requires forall e | e in es :: Tag(e.metadataName) in TagsOf(b, e.propertyName)
    ensures Register(b, es) == b
    decreases |es|
  {
    if es != [] {
      assert es[0] in es;
      assert AddTag(b, es[0]) == b;
      assert forall e | e in es[1..] :: e in es;
      RegisterPresent(b, es[1..]);
    }
  }

  /** Registering the same entries twice is the same as registering once. */
  lemma RegisterIdempotent(b: Bag, es: seq<Entry>)
    ensures Register(Register(b, es), es) == Register(b, es)
  {
    RegisterRecords(b, es);
    RegisterPresent(Register(b, es), es);
  }

  /** `b'` extends `b`: keys keep their positions and lists only grow at the end. */
  ghost predicate Extends(b: Bag, b': Bag) {
    && |b| <= |b'|
    && forall i | 0 <= i < |b| :: b'[i].property == b[i].property && b[i].items <= b'[i].items
  }

  /** Every position of `b` whose key is not in `names` is unchanged in `b'`. */
  ghost predicate KeepsUnnamed(b: Bag, b': Bag, names: set<string>)
    requires |b| <= |b'|
  {
    forall i | 0 <= i < |b| && b[i].property !in names :: b'[i] == b[i]
  }

  /** Every position `b'` adds is keyed by one of `names`. */
  ghost predicate AddsNamed(b: Bag, b': Bag, names: set<string>) {
    forall i | |b| <= i < |b'| :: b'[i].property in names
  }

  lemma AddTagAppendOnly(b: Bag, e: Entry)
    ensures Extends(b, AddTag(b, e))
    ensures KeepsUnnamed(b, AddTag(b, e), {e.propertyName})
    ensures AddsNamed(b, AddTag(b, e), {e.propertyName})
  {
  }

  lemma ExtendsTrans(b0: Bag, b1: Bag, b2: Bag, n1: set<string>, n2: set<string>)
    requires Extends(b0, b1) && Extends(b1, b2)
    requires KeepsUnnamed(b0, b1, n1) && KeepsUnnamed(b1, b2, n2)
    requires AddsNamed(b0, b1, n1) && AddsNamed(b1, b2, n2)
    ensures Extends(b0, b2)
    ensures KeepsUnnamed(b0, b2, n1 + n2)
    ensures AddsNamed(b0, b2, n1 + n2)
  {
    forall i | 0 <= i < |b0|
      ensures b2[i].property == b0[i].property && b0[i].items <= b2[i].items
    {
      assert b0[i].items <= b1[i].items && b1[i].items <= b2[i].items;
    }
  }

  /** Registration only appends: existing keys keep their place and their
      tags keep their order, a key not named by any entry keeps its list,
      and every new key is one of the entries' property names. */
  lemma {:induction false} RegisterAppendOnly(b: Bag, es: seq<Entry>)
    ensures Extends(b, Register(b, es))
    ensures KeepsUnnamed(b, Register(b, es), Names(es))
    ensures AddsNamed(b, Register(b, es), Names(es))
    decreases |es|
  {
    if es != [] {
      var b1 := AddTag(b, es[0]);
      AddTagAppendOnly(b, es[0]);
      RegisterAppendOnly(b1, es[1..]);
      assert es == [es[0]] + es[1..];
      assert Names(es) == {es[0].propertyName} + Names(es[1..]);
      ExtendsTrans(b, b1, Register(b1, es[1..]), {es[0].propertyName}, Names(es[1..]));
    }
  }

  // ---------------------------------------------------------------------
  // Retrieval (lines 47-83)
  // ---------------------------------------------------------------------

  /** The number of tags in all lists. */
  function Count<T>(slots: seq<Slot<T>>): nat {
    if slots == [] then 0 else |slots[0].items| + Count(slots[1..])
  }

  /** Where the entries of slot `i` start in the flattened list. */
  function Offset<T>(slots: seq<Slot<T>>, i: nat): nat
    requires i <= |slots|
  {
    Count(slots[..i])
  }

  /** Each non-empty list, in key order, as entries named by `name`. */
  function Flatten<T>(slots: seq<Slot<T>>, name: T -> string): (r: seq<Entry>)
    ensures |r| == Count(slots)
  {
    if slots == [] then []
    else
      var s := slots[0];
      (if |s.items| > 0 then seq(|s.items|, j requires 0 <= j < |s.items| => Entry(s.property, name(s.items[j])))
       else [])
      + Flatten(slots[1..], name)
  }

  /** A reflected decorator prints as `@Input`; one leading '@' is removed. */
  function StripAt(s: string): string {
    if |s| > 0 && s[0] == '@' then s[1..] else s
  }

  function NameOf(t: Tag): string {
    t.ngMetadataName
  }

  /** `GetNgxEntryComponentMetaData`: the reflection table's entries, then
      the bag's. */
  function GetNgxEntryComponentMetaData(m: ClassMeta): (r: seq<Entry>)
    ensures |r| == Count(m.reflect.GetOr([])) + Count(m.bag.GetOr([]))
    ensures m.reflect.None? && m.bag.None? ==> r == []
  {
    (if m.reflect.Some? then Flatten(m.reflect.value, StripAt) else [])
    + (if m.bag.Some? then Flatten(m.bag.value, NameOf) else [])
  }

  lemma CountSplit<T>(slots: seq<Slot<T>>, i: nat)
    requires i < |slots|
    ensures Count(slots[..i + 1]) == Count(slots[..i]) + |slots[i].items|
    ensures Count(slots[..i + 1]) <= Count(slots)
  {
    if i == 0 {
      assert slots[..1][1..] == [];
      CountPrefix(slots, 1);
    } else {
      assert slots[..i + 1][1..] == slots[1..][..i];
      assert slots[..i][1..] == slots[1..][..i - 1];
      CountSplit(slots[1..], i - 1);
    }
  }

  lemma CountPrefix<T>(slots: seq<Slot<T>>, i: nat)
    requires i <= |slots|
    ensures Count(slots[..i]) <= Count(slots)
  {
    if i > 0 {
      assert slots[..i][1..] == slots[1..][..i - 1];
      CountPrefix(slots[1..], i - 1);
    }
  }

  /** Item `j` of slot `i` sits at `Offset(i) + j`: lists keep their key
      order and each list keeps its own order. */
  lemma {:induction false} FlattenAt<T>(slots: seq<Slot<T>>, name: T -> string, i: nat, j: nat)
    requires i < |slots| && j < |slots[i].items|
    ensures Offset(slots, i) + j < |Flatten(slots, name)|
    ensures Flatten(slots, name)[Offset(slots, i) + j] == Entry(slots[i].property, name(slots[i].items[j]))
    decreases i
  {
    CountSplit(slots, i);
    if i > 0 {
      FlattenAt(slots[1..], name, i - 1, j);
      assert slots[..i][1..] == slots[1..][..i - 1];
    } else {
      assert slots[..0] == [];
    }
  }

  /** An entry is in the flattened list exactly when some list holds it. */
  lemma {:induction false} FlattenMembers<T>(slots: seq<Slot<T>>, name: T -> string, x: Entry)
    ensures x in Flatten(slots, name) <==>
            exists i, j | 0 <= i < |slots| && 0 <= j < |slots[i].items| ::
              x == Entry(slots[i].property, name(slots[i].items[j]))
    decreases |slots|
  {
    if slots != [] {
      FlattenMembers(slots[1..], name, x);
      var s := slots[0];
      var head := if |s.items| > 0 then seq(|s.items|, j requires 0 <= j < |s.items| => Entry(s.property, name(s.items[j])))
                  else [];
      var rest := Flatten(slots[1..], name);
      assert Flatten(slots, name) == head + rest;
      assert x in head + rest <==> x in head || x in rest;
      if x in head + rest {
        if x in rest {
          var i, j :| 0 <= i < |slots[1..]| && 0 <= j < |slots[1..][i].items|
                   && x == Entry(slots[1..][i].property, name(slots[1..][i].items[j]));
          assert slots[i + 1] == slots[1..][i];
        } else {
          var j :| 0 <= j < |s.items| && x == Entry(s.property, name(s.items[j]));
          assert slots[0] == s;
        }
      }
      if exists i, j | 0 <= i < |slots| && 0 <= j < |slots[i].items| ::
           x == Entry(slots[i].property, name(slots[i].items[j])) {
        var i, j :| 0 <= i < |slots| && 0 <= j < |slots[i].items|
                 && x == Entry(slots[i].property, name(slots[i].items[j]));
        if i == 0 {
          assert head[j] == x;
        } else {
          assert slots[1..][i - 1] == slots[i];
        }
      }
    }
  }

  /** The reflection table, empty when absent. */
  function Reflected(m: ClassMeta): ReflectTable {
    m.reflect.GetOr([])
  }

  /** The bag, empty when absent. */
  function Bagged(m: ClassMeta): Bag {
    m.bag.GetOr([])
  }

  /** Retrieval starts with the reflection table's entries: item `j` of
      key `i` is the `Offset(i) + j`-th entry, with one leading '@' removed.
      So keys and lists keep their order, and empty lists add nothing. */
  lemma GetReflectAt(m: ClassMeta, i: nat, j: nat)
    requires i < |Reflected(m)| && j < |Reflected(m)[i].items|
    ensures |GetNgxEntryComponentMetaData(m)| == Count(Reflected(m)) + Count(Bagged(m))
    ensures Offset(Reflected(m), i) + j < Count(Reflected(m))
    ensures GetNgxEntryComponentMetaData(m)[Offset(Reflected(m), i) + j]
            == Entry(Reflected(m)[i].property, StripAt(Reflected(m)[i].items[j]))
  {
    assert GetNgxEntryComponentMetaData(m) == Flatten(Reflected(m), StripAt) + Flatten(Bagged(m), NameOf);
    FlattenAt(Reflected(m), StripAt, i, j);
  }

  /** The bag's entries come after all of the reflection table's: item `j`
      of key `i` is the `Count(reflect) + Offset(i) + j`-th entry, with the
      tag name copied verbatim. */
  lemma GetBagAt(m: ClassMeta, i: nat, j: nat)
    requires i < |Bagged(m)| && j < |Bagged(m)[i].items|
    ensures Count(Reflected(m)) <= Count(Reflected(m)) + Offset(Bagged(m), i) + j < |GetNgxEntryComponentMetaData(m)|
    ensures GetNgxEntryComponentMetaData(m)[Count(Reflected(m)) + Offset(Bagged(m), i) + j]
            == Entry(Bagged(m)[i].property, Bagged(m)[i].items[j].ngMetadataName)
  {
    var head := Flatten(Reflected(m), StripAt);
    assert GetNgxEntryComponentMetaData(m) == head + Flatten(Bagged(m), NameOf);
    FlattenAt(Bagged(m), NameOf, i, j);
  }

  /** With distinct keys, an entry is in the flattened bag exactly when its
      tag is in its property's list. */
  lemma FlattenBagMembers(b: Bag, p: string, n: string)
    requires WellFormed(b)
    ensures Entry(p, n) in Flatten(b, NameOf) <==> Tag(n) in TagsOf(b, p)
  {
    FlattenMembers(b, NameOf, Entry(p, n));
    if Entry(p, n) in Flatten(b, NameOf) {
      var i, j :| 0 <= i < |b| && 0 <= j < |b[i].items| && Entry(p, n) == Entry(b[i].property, NameOf(b[i].items[j]));
      FindSlotIsFirst(b, p, i);
      assert b[i].items[j] == Tag(n);
    }
    if Tag(n) in TagsOf(b, p) {
      var i := FindSlot(b, p).value;
      var j :| 0 <= j < |b[i].items| && b[i].items[j] == Tag(n);
      assert Entry(p, n) == Entry(b[i].property, NameOf(b[i].items[j]));
    }
  }

  /** A well-formed bag flattens without repeating a pair. */
  lemma {:induction false} FlattenBagDistinct(b: Bag)
    requires WellFormed(b)
    ensures Distinct(Flatten(b, NameOf))
    decreases |b|
  {
    if b != [] {
      var s := b[0];
      var head := if |s.items| > 0 then seq(|s.items|, j requires 0 <= j < |s.items| => Entry(s.property, NameOf(s.items[j]))) else [];
      var tail := Flatten(b[1..], NameOf);
      assert Flatten(b, NameOf) == head + tail;
      FlattenBagDistinct(b[1..]);
      forall x | x in tail
        ensures x.propertyName != s.property
      {
        FlattenMembers(b[1..], NameOf, x);
        var i, j :| 0 <= i < |b[1..]| && 0 <= j < |b[1..][i].items| && x == Entry(b[1..][i].property, NameOf(b[1..][i].items[j]));
        assert b[1..][i] == b[i + 1];
      }
      forall x, y | 0 <= x < y < |head + tail|
        ensures (head + tail)[x] != (head + tail)[y]
      {
        if y < |head| {
          assert s.items[x] != s.items[y];
        } else if x < |head| {
          assert (head + tail)[y] in tail;
        }
      }
    }
  }

  /** With no reflection table, retrieval after registration returns every
      registered pair exactly once together with what the bag held before;
      on a class with no metadata at all, exactly the distinct registered
      pairs. */
  lemma GetAfterSet(m: ClassMeta, es: seq<Entry>)
    requires m.reflect.None?
    requires m.bag.None? || WellFormed(m.bag.value)
    ensures Distinct(GetNgxEntryComponentMetaData(SetMeta(m, es)))
    ensures forall x :: x in GetNgxEntryComponentMetaData(SetMeta(m, es)) <==>
                        x in GetNgxEntryComponentMetaData(m) || x in es
    ensures m.bag.None? ==> forall x :: x in GetNgxEntryComponentMetaData(SetMeta(m, es)) <==> x in es
  {
    var b := m.bag.GetOr([]);
    assert WellFormed(b);
    RegisterWellFormed(b, es);
    var b' := Register(b, es);
    assert GetNgxEntryComponentMetaData(SetMeta(m, es)) == Flatten(b', NameOf);
    assert GetNgxEntryComponentMetaData(m) == Flatten(b, NameOf);
    FlattenBagDistinct(b');
    forall x
      ensures x in Flatten(b', NameOf) <==> x in Flatten(b, NameOf) || x in es
    {
      FlattenBagMembers(b', x.propertyName, x.metadataName);
      FlattenBagMembers(b, x.propertyName, x.metadataName);
      RegisterTags(b, es, x.propertyName, x.metadataName);
    }
  }

  /** Registration, followed by retrieval, on a class with no metadata
      yields nothing when nothing is registered. */
  lemma GetAfterEmptySet(m: ClassMeta)
    requires m.reflect.None? && m.bag.None?
    ensures GetNgxEntryComponentMetaData(SetMeta(m, [])) == []
  {
  }
}

=== FILE: wrappers.dfy ===
/** Option and Result, used for the JavaScript `undefined`-or-value fields and
    for operations that either return normally or throw. */
module Wrappers {

  datatype Option<+T> = None | Some(value: T) {

    /** The wrapped value, or `default` when there is none. */
    function GetOr(default: T): T {
      match this
      case Some(v) => v
      case None => default
    }
  }

  /** Either a normal return (`Success`) or a thrown exception (`Failure`). */
  datatype Result<+R, +E> = Success(value: R) | Failure(error: E) {

    predicate IsFailure() {
      Failure?
    }

    function PropagateFailure<U>(): Result<U, E>
      requires Failure?
    {
      Failure(error)
    }

    function Extract(): R
      requires Success?
    {
      value
    }
  }
}
